=== FILE: README.md ===
# Script repurposer: session gating, platform clamp and block extraction

The script repurposer is a single-page Streamlit app. It turns one YouTube
script into a Twitter/X thread, an Instagram carousel, a LinkedIn post and an
email newsletter. A language model first extracts "content blocks" from the
script as JSON. One generator per platform then writes that platform's
artifact from the blocks.

Everything the app remembers lives in Streamlit's session state:
- the blocks;
- the four artifact slots;
- a script counter and a redo counter;
- the `paid` and `show_paywall` flags.

This project models the logic that reads and writes that state:

- **Session** (`session.dfy`): the state record, its defaults, and the free-plan
  constants. It also defines `Valid`, the invariant every reachable session
  keeps:
  - the paywall flag is raised only while unpaid;
  - an unpaid session stays within its counters;
  - blocks exist exactly when an extraction succeeded;
  - no email slot is filled while unpaid.
- **Platforms** (`platforms.dfy`): the clamp that cuts an unpaid selection to
  its first two platforms.
- **Extractor** (`extractor.dfy`): the parse half of `extract_blocks`. It cuts
  the text from the first `{` to the last `}` and hands it to `json.loads`.
  The one-character searches and the in-range slice of lines 105-109 are
  modelled exactly.
- **Policy** (`policy.dfy`): the three gates:
  - the extraction admission check;
  - `redo_guard`;
  - the "I have paid" confirmation.
- **Controller** (`controller.dfy`): one pass of the script, as `Run`, and one
  user interaction, as `Turn`. An interaction is a pass, plus the pass that
  `st.rerun()` asks for.
  - A button counts as clicked only when its line is reached.
  - `st.stop()` ends the pass but keeps what was already written.
  - Each output section fills its slot lazily and handles its redo button.
- **Runs**, **Turns** (`runs.dfy`, `turns.dfy`): what one pass and one
  interaction promise:
  - framing;
  - the gates' decisions;
  - the counters;
  - which requests reach the model;
  - the slot cache;
  - the invariant.
- **Properties** (`properties.dfy`): properties of whole sessions. A session
  is a replayed sequence of interactions. These cover the free budgets, idle
  re-rendering, the paywall timing and payment.
- **Scenarios** (`scenarios.dfy`): two interactions worked through to exact
  results:
  - a first extraction with three platforms picked;
  - the free redo allowance running out.

The language model is a parameter. `complete(k, q)` is its reply to the k-th
request `q` of an interaction. Every request a pass sends is recorded in
order, so the contracts can say what was asked. `json.loads` is also a
parameter, `parse`. Its only assumed property is that the empty text is not
JSON.

Notes on what the code does:
- **Extraction.** The object `json.loads` returns is stored as it is. Its
  keys are never checked: the only later test is the truthiness test
  `if blocks:` at line 230. An object missing the five keys is stored, and
  the script is counted.
- **Paywall timing.** A denied "Repurpose" click stops at line 170, before
  the paywall section at line 198. So the paywall is first rendered by the
  next interaction, which `Properties.DeniedExtractionShowsPaywallNextTime`
  states.
- **Redo denial.** `redo_guard` runs inside an output section, after line
  198, so a redo denial is likewise followed by the paywall only on the
  next interaction.

## Model

| member | source | states |
|---|---|---|
| Session.WithSlot | Content_repurposer.py:239-279 | replacing one artifact slot, as each section does when it fills or regenerates its own platform (lines 239, 243, 250, 254, 261, 265, 275, 279), sets that slot to the new value and leaves the other three as they were |
| Platforms.Clamp | Content_repurposer.py:68-71 | the run's platforms are a prefix of the selection; an unpaid selection of more than two is cut to exactly its first two, with the warning; a paid or short selection passes unchanged, without the warning |
| Platforms.ClampKeepsSelectedOnly | Content_repurposer.py:68-71 | every platform the run works with was selected, and the clamped list is empty exactly when the selection is |
| Extractor.FirstFrom | Content_repurposer.py:105 | the first index from a start position holding the character, or -1 when none does |
| Extractor.Find | Content_repurposer.py:105 | `raw.find("{")` returns -1 exactly when there is no `{`, otherwise an index holding `{` with none before it |
| Extractor.RFind | Content_repurposer.py:106 | `raw.rfind("}")` returns -1 exactly when there is no `}`, otherwise an index holding `}` with none after it |
| Extractor.LastBefore | Content_repurposer.py:106 | the last index below a bound holding the character, or -1 when none does |
| Extractor.Slice | Content_repurposer.py:109 | the Python slice `raw[start:end]` is the substring when `start < end` and empty otherwise |
| Extractor.Candidate | Content_repurposer.py:105-109 | no candidate exactly when the reply lacks `{` or `}` (the `ValueError` path); a non-empty candidate begins with `{` and ends with `}` and is no longer than the reply |
| Extractor.FindIsFirst | Content_repurposer.py:105 | the first occurrence of a character, described without the search, is what the search returns |
| Extractor.RFindIsLast | Content_repurposer.py:106 | the last occurrence of a character, described without the search, is what the reverse search returns |
| Extractor.SearchesFindOutermostBraces | Content_repurposer.py:105-107 | when the reply has both braces, the two searches return its first `{` and its last `}` |
| Extractor.CandidateIsOutermostSpan | Content_repurposer.py:104-109 | a candidate exists exactly when the reply has a first `{` and a last `}`, and it is the text from the one to the other inclusive, or empty when the `}` comes first |
| Extractor.JsonLoads | Content_repurposer.py:109 | the empty text never parses; any other text parses as the parser says |
| Extractor.ExtractBlocks | Content_repurposer.py:104-113 | a reply without both braces fails; a non-empty candidate gives exactly what the parser makes of it; a successful parse came from a non-empty candidate |
| Extractor.ReversedBracesFail | Content_repurposer.py:105-110 | a reply whose last `}` precedes its first `{` gives the empty candidate, so extraction fails whatever the parser accepts |
| Policy.AdmitExtraction | Content_repurposer.py:167-170 | an extraction is denied exactly when the session is unpaid and its one free script is used; a denial only raises the paywall flag; admission changes nothing |
| Policy.RedoGuard | Content_repurposer.py:188-193 | a redo is denied exactly when the session is unpaid and has used three redos; a denial only raises the paywall flag; a grant counts one redo and changes nothing else |
| Policy.ConfirmPayment | Content_repurposer.py:219-221 | "I have paid" sets `paid`, lowers the paywall flag, and changes nothing else |
| Policy.PaywallVisible | Content_repurposer.py:198 | a paid session never sees the paywall, nor one whose flag is down; an unpaid session with the flag up always does |
| Policy.Renders | Content_repurposer.py:236-270 | a section is rendered only for a platform the run kept; the email newsletter never for an unpaid session; any other kept platform always, and every kept platform once paid |
| Controller.Submit | Content_repurposer.py:165-183 | the admission check comes first, then the empty-input check; the model is asked once, only after both pass; a failed parse leaves the session as it was; success stores the blocks, counts the script, resets the redo count and empties every slot; the invariant is kept |
| Controller.Fill | Content_repurposer.py:238-239 | a filled slot causes no request and no change; an empty slot gets exactly one generation request for its platform, and the reply is stored |
| Controller.Section | Content_repurposer.py:235-280 | an unrendered section changes nothing; a rendered one has its slot filled afterwards; it requests only its own platform, exactly once for the lazy fill of an empty slot and once more for a granted redo, and never otherwise; the lazy fill stores the generator's reply, which only a granted redo replaces; a denied redo stops with only the flag raised and asks nothing beyond the fill of an empty slot; a granted redo counts one, replaces the slot with the new reply and reruns; the invariant is kept |
| Controller.Handle | Content_repurposer.py:165-183 | the handler runs exactly on a "Repurpose" click; the pass goes on only without a click of it or after a successful extraction, with `paid` and the flag unchanged; it takes no redo decision and never reruns |
| Controller.Outputs | Content_repurposer.py:230-280 | once a section stops or reruns, the later sections are not rendered; the submit outcome is kept; without a redo click the sections neither stop nor rerun the pass |
| Controller.Render | Content_repurposer.py:228-230 | without truthy blocks, or once the pass has ended, no output section runs and nothing changes; without a redo click the pass neither stops nor reruns there |
| Controller.Run | Content_repurposer.py:57-280 | the submit handler decides exactly on a "Repurpose" click; a pass reruns only after "I have paid" or a redo click; a pass with no click runs to the end |
| Controller.Turn | Content_repurposer.py:223-244 | an interaction never ends asking for a rerun, since the pass `st.rerun()` starts has no click; the submit handler decides exactly on a "Repurpose" click |
| Runs.OutputsFrame | Content_repurposer.py:230-280 | the output sections keep the blocks, the script count, `paid` and the submit outcome, and leave the slots of unvisited platforms alone |
| Runs.OutputsCounts | Content_repurposer.py:188-193 | across the sections, the redo count grows by one exactly when a redo is granted, and the flag is raised exactly when one is denied; with no decision the flow is unchanged |
| Runs.OutputsRedo | Content_repurposer.py:241-244 | a decision is taken only for a redo click on a rendered section; a denial stops, for an unpaid session with three redos used; a grant reruns with the clicked platform's slot holding the last reply |
| Runs.OutputsFlow | Content_repurposer.py:241-280 | among the sections only a granted redo asks for a rerun, and with no click every section runs to the end |
| Runs.OutputsRequests | Content_repurposer.py:236-280 | every request the sections add is a generation for a rendered platform of the order, with the current blocks and tone, for an empty slot or a redo that `redo_guard` granted (a denied redo regenerates nothing) |
| Runs.OutputsSlots | Content_repurposer.py:236-280 | a filled slot stays filled, and is replaced only by a granted redo; a pass that runs to the end leaves every rendered slot filled; an idle pass that asks nothing changes nothing |
| Runs.OutputsValid | Content_repurposer.py:230-280 | the output sections keep the session invariant |
| Runs.RunPayment | Content_repurposer.py:198-223 | within a pass, `paid` never falls and rises only on "I have paid" behind a visible paywall, which reruns; the flag is raised only by a denial and lowered only by payment; the paywall is rendered exactly when visible and the pass reaches it |
| Runs.RunAdmission | Content_repurposer.py:165-183 | the submit handler runs exactly on a "Repurpose" click; it reports the limit exactly for unpaid sessions past their free script, and a paid session never hits it; the effect of each outcome |
| Runs.RunRedo | Content_repurposer.py:188-193 | only a redo click reaches `redo_guard`; a paid session is never denied; a denial stops with the flag raised, for an unpaid session with three redos used |
| Runs.RunFlow | Content_repurposer.py:219-244 | a pass reruns only after a granted redo or a payment; a pass with no click runs to the end |
| Runs.RunCounters | Content_repurposer.py:176-178 | an extraction stores blocks, counts one script and zeroes the redo count; otherwise the blocks and script count stay, and the redo count grows by the grant |
| Runs.RunRequests | Content_repurposer.py:165-183 | a pass only appends to the request log, and the extraction it may add comes first and only on a "Repurpose" click |
| Runs.RunGenerations | Content_repurposer.py:230-280 | every generation of a pass is for a platform rendered under the clamp and the email gate, while the outputs are up, and for a slot that was empty, was just cleared, or whose redo was granted |
| Runs.OutputsSkip | Content_repurposer.py:236-280 | sections that are unrendered, or filled and not clicked, leave the pass unchanged |
| Runs.RunIdleFilled | Content_repurposer.py:228-280 | a pass with no click over a session whose rendered slots are all filled asks nothing and changes nothing |
| Runs.RunSlots | Content_repurposer.py:180-280 | filled slots stay filled unless blocks are re-extracted; a slot is replaced only by an extraction or a granted redo of its own platform |
| Runs.RunSlotsFilled | Content_repurposer.py:236-280 | a pass that runs to the end leaves every rendered slot filled; a pass with no click that asks nothing changes nothing |
| Runs.RunValid | Content_repurposer.py:165-280 | one pass keeps the session invariant |
| Turns.TurnPayment | Content_repurposer.py:198-223 | an interaction never ends asking for a rerun; `paid` never falls and rises only on "I have paid" behind a visible paywall; which interactions render the paywall |
| Turns.TurnDecisions | Content_repurposer.py:165-193 | paid sessions are never denied; the effect on the state and the request log of a limit denial, a missing input and a failed parse over a whole interaction (a successful extraction is `Turns.TurnExtraction`); the redo decision and its denial effect |
| Turns.TurnExtraction | Content_repurposer.py:165-183 | a successful extraction over an interaction: its request is the first one sent, the parsed blocks are stored, one script is counted, redos restart, and `paid` and the paywall flag are unchanged |
| Turns.TurnCounters | Content_repurposer.py:176-193 | over an interaction, an extraction counts one script and zeroes redos; otherwise redos grow by one exactly when one is granted |
| Turns.TurnEmailGate | Content_repurposer.py:268-280 | no interaction asks for an email newsletter unless the session ends it paid |
| Turns.CombineRerunRequests | Content_repurposer.py:236-280 | the requests of a pass and of its rerun, combined: generations are for selected platforms whose slot was empty at the start, cleared by an extraction, or granted a redo |
| Turns.TurnRequests | Content_repurposer.py:165-280 | every generation asked for is of a selected platform, for an empty slot, a fresh extraction or a granted redo; an extraction is asked for only on "Repurpose" |
| Turns.TurnRequestsRendered | Content_repurposer.py:230-280 | generations are asked for only when outputs are rendered, and, while `paid` is unchanged, only for platforms the clamp kept and the email gate lets through |
| Turns.CombineRerunRendered | Content_repurposer.py:230-280 | the rendering facts of a pass and of its rerun, combined: generations happen while outputs are up and, with `paid` unchanged, for rendered platforms |
| Turns.TurnSlots | Content_repurposer.py:180-280 | a slot is replaced only by an extraction or a granted redo; at the end of an interaction every rendered slot is filled; an idle interaction that asks nothing changes nothing |
| Turns.TurnValid | Content_repurposer.py:38-280 | every interaction keeps the session invariant |
| Properties.ReplayValid | Content_repurposer.py:38-280 | every session reached from a valid one is valid, and a paid session stays paid |
| Properties.ScriptCountCountsExtractions | Content_repurposer.py:176-177 | the script counter equals the number of successful extractions |
| Properties.RedoCountCountsGrants | Content_repurposer.py:188-193 | between extractions, the redo counter grows by exactly the number of granted redos, on all platforms together |
| Properties.FreeRedoBudget | Content_repurposer.py:31 | a session that ends unpaid was granted at most three redos since its last extraction |
| Properties.FreeScriptBudget | Content_repurposer.py:30 | a session that ends unpaid extracted at most once |
| Properties.IdleRerenderAsksNothing | Content_repurposer.py:236-276 | re-rendering with the same widgets and no click asks the model nothing and changes nothing |
| Properties.DeniedExtractionShowsPaywallNextTime | Content_repurposer.py:167-170 | a denied "Repurpose" click does not render the paywall but leaves it visible; the next idle or redo interaction renders it |
| Properties.PaymentUnlocks | Content_repurposer.py:219-223 | "I have paid" behind a visible paywall unlocks the session for good: no later extraction or redo is denied |
| Properties.BracelessReplyFails | Content_repurposer.py:104-113 | an admitted extraction whose reply lacks a brace fails, leaves the session as it was, and sent only the extraction request |
| Scenarios.FirstExtractionHandled | Content_repurposer.py:68-183 | the handler part of a first extraction with three platforms picked: the clamp keeps two, the blocks are stored, the script is counted, and the pass goes on to the output sections |
| Scenarios.FirstExtractionOutputs | Content_repurposer.py:235-271 | over empty slots, the output sections of that pass generate Twitter and then Instagram, each into its slot, and nothing else |
| Scenarios.ScenarioFirstExtraction | Content_repurposer.py:68-183 | a fresh unpaid session with Twitter, Instagram and Email picked asks for the extraction, then the Twitter and Instagram generations in that order; the email slot stays empty; the next "Repurpose" is denied with only the flag raised and nothing asked |
| Scenarios.RedoTwitterPass | Content_repurposer.py:235-244 | the exact first pass of a Twitter redo with Twitter alone selected, denied or granted |
| Scenarios.RedoTwitterAlone | Content_repurposer.py:188-193 | a Twitter redo interaction is denied with only the flag raised once three redos are used while unpaid; otherwise it counts one redo and replaces the thread with the one reply it asks for |
| Scenarios.ScenarioRedoLimit | Content_repurposer.py:188-193 | with Twitter alone, three redos are granted and the fourth is denied, and the thread keeps the text of the third |

## Left out

- Rendering: titles, captions, `st.warning`, `st.error`, `st.success`, `st.code`, `st.json` and the expander have no effect on the session state. Only the clamp's warning is kept, as `Clamped.truncated`.
- The language model client and the prompt texts: the model is the `complete` oracle. Each request records what its prompt is built from: the script, or the platform, blocks and tone. The literal wording of the prompts and the `json.dumps` of the blocks are not modelled.
- `json.loads` is the `parse` oracle. The JSON grammar is not modelled. Only the failure on empty text is assumed. A non-empty candidate begins with `{`, so a successful parse is always an object, and `Blocks` models only objects.
- The `.strip()` of each reply is left to the oracle: it stands for the stripped reply.
- Exceptions raised by a generator call, or by the extraction call outside its `try`, are not modelled. Every model call returns text.
- The UPI link, the price, the page configuration and `load_dotenv` are static output or setup.
- The multiselect returns distinct options. The model accepts any sequence of platforms, so duplicates are allowed but never produced by the widget.
- Tone and selection changes between the two passes of one interaction are not modelled. Both passes see the same widget values, as Streamlit gives them.
- Concurrency between browser sessions is not modelled. Each session state is separate.

=== FILE: controller.dfy ===
/** One pass of the Streamlit script over the session state, and one user
    interaction (a pass, plus the pass `st.rerun()` asks for).

    Streamlit runs the whole script top to bottom on every interaction. A
    button reads as clicked only in the run that the click triggered, and
    only if the run reaches the line that renders it. `st.stop()` ends the
    run; what the run had already written to the session state stays.
 */
module Controller {
  import opened Session
  import opened Platforms
  import opened Extractor
  import opened Policy

  /** What a run asks the language model: the extraction prompt for a
      script, or a platform's generation prompt for blocks and a tone. */
  datatype Request =
    | Extraction(script: string)
    | Generation(platform: Platform, blocks: Blocks, tone: Tone)

  /** The collaborators the model does not see: `complete(k, q)` is the
      model's reply to the k-th request of the interaction, `parse` is `json.loads`. */
  datatype Oracles = Oracles(complete: (nat, Request) -> string, parse: string -> Option<Blocks>)

  /** The widget values of a run: the script text, the platforms in the
      order they were picked, and the tone. */
  datatype Form = Form(script: string, selection: seq<Platform>, tone: Tone)

  /** The one button clicked in an interaction, if any. */
  datatype Action = NoClick | Repurpose | Redo(platform: Platform) | ConfirmPaid

  /** How a run ended: it reached the end, hit `st.stop()`, or hit `st.rerun()`. */
  datatype Flow = Continue | Stop | Rerun

  /** The four ways the "Repurpose" handler ends. */
  datatype SubmitOutcome = LimitReached | MissingInput | ParseFailed | Extracted

  /** A run in progress or finished: the session state, the requests sent
      so far, how the run ends, whether the paywall was rendered, and what
      the submit handler and `redo_guard` decided, if they ran. */
  datatype RunResult = RunResult(
    state: State,
    calls: seq<Request>,
    flow: Flow,
    paywallShown: bool,
    submit: Option<SubmitOutcome>,
    redo: Option<Decision>)

  datatype Submission = Submission(outcome: SubmitOutcome, state: State, calls: seq<Request>)

  /** Request `c` is a generation request for platform `p`. */
  predicate GeneratesFor(c: Request, p: Platform) {
    c.Generation? && c.platform == p
  }

  /** The "Repurpose" handler. The admission check runs first, before the
      empty script / empty selection check; the model is asked only after
      both pass, and a reply that does not parse leaves the session as it was. */
  function Submit(s: State, script: string, platforms: seq<Platform>, o: Oracles,
                  calls: seq<Request>): (r: Submission)
    ensures r.outcome == LimitReached <==> !s.paid && s.scriptCount >= FreeScriptLimit
    ensures r.outcome == MissingInput <==>
              r.outcome != LimitReached && (script == [] || platforms == [])
    ensures r.outcome == LimitReached ==> r.state == s.(showPaywall := true) && r.calls == calls
    ensures r.outcome == MissingInput ==> r.state == s && r.calls == calls
    ensures r.outcome == ParseFailed || r.outcome == Extracted ==>
              r.calls == calls + [Extraction(script)]
              && (r.outcome == Extracted <==>
                    ExtractBlocks(o.complete(|calls|, Extraction(script)), o.parse).Some?)
    ensures r.outcome == ParseFailed ==> r.state == s
    ensures r.outcome == Extracted ==>
              && r.state.blocks == ExtractBlocks(o.complete(|calls|, Extraction(script)), o.parse)
              && r.state.scriptCount == s.scriptCount + 1
              && r.state.redoCount == 0
              && r.state.slots == EmptySlots
              && r.state.paid == s.paid && r.state.showPaywall == s.showPaywall
    ensures Valid(s) ==> Valid(r.state)
  {
    var (s1, d) := AdmitExtraction(s);
    if d == Denied then Submission(LimitReached, s1, calls)
    else if script == [] || platforms == [] then Submission(MissingInput, s, calls)
    else
      var q := Extraction(script);
      match ExtractBlocks(o.complete(|calls|, q), o.parse)
      case None => Submission(ParseFailed, s, calls + [q])
      case Some(b) =>
        Submission(Extracted,
                   s.(blocks := Some(b), scriptCount := s.scriptCount + 1,
                      redoCount := 0, slots := EmptySlots),
                   calls + [q])
  }

  /** The lazy fill of one slot: the generator is asked only when the slot is
      empty, so filling a filled slot changes nothing. */
  function Fill(r: RunResult, p: Platform, b: Blocks, tone: Tone, o: Oracles): (r': RunResult)
    ensures SlotOf(r'.state.slots, p).Some?
    ensures SlotOf(r.state.slots, p).Some? ==> r' == r
    ensures SlotOf(r.state.slots, p).None? ==>
              && r'.calls == r.calls + [Generation(p, b, tone)]
              && SlotOf(r'.state.slots, p) == Some(o.complete(|r.calls|, Generation(p, b, tone)))
    ensures forall q :: q != p ==> SlotOf(r'.state.slots, q) == SlotOf(r.state.slots, q)
    ensures r' == r.(state := r.state.(slots := r'.state.slots), calls := r'.calls)
  {
    if SlotOf(r.state.slots, p).Some? then r
    else
      var q := Generation(p, b, tone);
      var text := o.complete(|r.calls|, q);
      r.(state := r.state.(slots := WithSlot(r.state.slots, p, Some(text))),
         calls := r.calls + [q])
  }

  /** The output section of platform `p`: when rendered, fill its slot; if
      its redo button was clicked, consult `redo_guard`, and on a grant
      regenerate the slot wholesale and ask for a rerun. */
  function Section(r: RunResult, p: Platform, platforms: seq<Platform>, action: Action,
                   b: Blocks, tone: Tone, o: Oracles): (r': RunResult)
    requires r.flow == Continue ==> r.redo == None
    ensures r'.flow == Continue ==> r'.redo == None
    ensures r.flow != Continue || !Renders(p, platforms, r.state.paid) ==> r' == r
    // the section touches only its own slot, the redo counter and the paywall flag
    ensures r'.state.blocks == r.state.blocks && r'.state.scriptCount == r.state.scriptCount
            && r'.state.paid == r.state.paid
    ensures r'.submit == r.submit && r'.paywallShown == r.paywallShown
    ensures forall q :: q != p ==> SlotOf(r'.state.slots, q) == SlotOf(r.state.slots, q)
    // every request it sends is for its own platform
    ensures r.calls <= r'.calls
    ensures forall i :: |r.calls| <= i < |r'.calls| ==> r'.calls[i] == Generation(p, b, tone)
    // the generator runs only for an empty slot or after a granted redo
    ensures |r'.calls| > |r.calls| ==>
              SlotOf(r.state.slots, p).None? || (action == Redo(p) && r'.redo == Some(Allowed) && r.redo == None)
    ensures r'.redo == Some(Denied) && r.redo == None ==>
              |r'.calls| == |r.calls| + (if SlotOf(r.state.slots, p).None? then 1 else 0)
    // one request for the lazy fill of an empty slot, one for a granted redo
    ensures |r'.calls| == |r.calls|
              + (if r.flow == Continue && Renders(p, platforms, r.state.paid) && SlotOf(r.state.slots, p).None? then 1 else 0)
              + (if r'.redo == Some(Allowed) && r.redo == None then 1 else 0)
    // the lazy fill stores the generator's reply, which only a granted redo replaces
    ensures r.flow == Continue && Renders(p, platforms, r.state.paid) && SlotOf(r.state.slots, p).None?
            && r'.redo != Some(Allowed) ==>
              SlotOf(r'.state.slots, p) == Some(o.complete(|r.calls|, Generation(p, b, tone)))
    ensures r.flow == Continue && Renders(p, platforms, r.state.paid) ==>
              SlotOf(r'.state.slots, p).Some?
    // redo bookkeeping
    ensures r'.state.showPaywall == (r.state.showPaywall || (r'.redo == Some(Denied) && r.redo == None))
    ensures r'.state.redoCount == r.state.redoCount + (if r'.redo == Some(Allowed) && r.redo == None then 1 else 0)
    ensures r'.redo == r.redo ==>
              && r'.flow == r.flow && r'.state.redoCount == r.state.redoCount
              && r'.state.showPaywall == r.state.showPaywall
    ensures r'.redo != r.redo ==>
              && r.flow == Continue && r.redo == None && action == Redo(p)
              && Renders(p, platforms, r.state.paid)
    ensures r'.redo == Some(Denied) && r.redo == None ==>
              && r'.flow == Stop && !r.state.paid && r.state.redoCount >= FreeRedoLimit
              && r'.state.redoCount == r.state.redoCount && r'.state.showPaywall
    ensures r'.redo == Some(Allowed) && r.redo == None ==>
              && r'.flow == Rerun && r'.state.redoCount == r.state.redoCount + 1
              && r'.state.showPaywall == r.state.showPaywall
              && |r'.calls| > 0
              && SlotOf(r'.state.slots, p)
                 == Some(o.complete(|r'.calls| - 1, Generation(p, b, tone)))
    // a filled slot is replaced only after a granted redo
    ensures SlotOf(r.state.slots, p).Some? && SlotOf(r'.state.slots, p) != SlotOf(r.state.slots, p) ==>
              r'.redo == Some(Allowed) && r.redo == None
    ensures SlotOf(r.state.slots, p).Some? ==> SlotOf(r'.state.slots, p).Some?
    ensures action == NoClick && |r'.calls| == |r.calls| ==> r' == r
    ensures Valid(r.state) && r.state.blocks == Some(b) && Truthy(b) ==> Valid(r'.state)
  {
    if r.flow != Continue || !Renders(p, platforms, r.state.paid) then r
    else
      var r1 := Fill(r, p, b, tone, o);
      if action != Redo(p) then r1
      else
        var (s2, d) := RedoGuard(r1.state);
        if d == Denied then
          r1.(state := s2, flow := Stop, redo := Some(Denied))
        else
          var q := Generation(p, b, tone);
          var text := o.complete(|r1.calls|, q);
          r1.(state := s2.(slots := WithSlot(s2.slots, p, Some(text))),
              calls := r1.calls + [q], flow := Rerun, redo := Some(Allowed))
  }

  /** The output sections in script order, each seeing what the previous
      ones left. A section that stops or reruns ends the pass: the sections
      after it are not rendered. */
  function Outputs(r: RunResult, order: seq<Platform>, platforms: seq<Platform>, action: Action,
                   b: Blocks, tone: Tone, o: Oracles): (r': RunResult)
    requires r.flow == Continue ==> r.redo == None
    ensures r'.flow == Continue ==> r'.redo == None
    ensures r.flow != Continue ==> r' == r
    ensures r'.submit == r.submit
    // only a redo click can stop or rerun the pass
    ensures !action.Redo? ==> r'.flow == r.flow
    decreases |order|
  {
    if order == [] then r
    else
      var r1 := Section(r, order[0], platforms, action, b, tone, o);
      Outputs(r1, order[1..], platforms, action, b, tone, o)
  }

  /** Line 230 onwards: the output sections, when the blocks are truthy. */
  function Render(r: RunResult, platforms: seq<Platform>, action: Action, tone: Tone, o: Oracles): (r': RunResult)
    requires r.flow == Continue ==> r.redo == None
    ensures !HasOutputs(r.state) || r.flow != Continue ==> r' == r
    ensures r'.submit == r.submit
    ensures !action.Redo? ==> r'.flow == r.flow
  {
    if HasOutputs(r.state) then Outputs(r, SectionOrder, platforms, action, r.state.blocks.value, tone, o)
    else r
  }

  /** Lines 165-183: the "Repurpose" handler when it was clicked; the pass
      goes on only after a successful extraction. */
  function Handle(s: State, form: Form, platforms: seq<Platform>, action: Action, o: Oracles,
                  calls: seq<Request>): (r: RunResult)
    ensures r.redo == None && !r.paywallShown && r.flow != Rerun
    ensures r.submit.Some? <==> action == Repurpose
    ensures r.flow == Continue <==> r.submit == None || r.submit == Some(Extracted)
    ensures r.flow == Continue ==> r.state.paid == s.paid && r.state.showPaywall == s.showPaywall
    ensures r.submit != Some(Extracted) && r.flow == Continue ==> r.state == s && r.calls == calls
  {
    if action == Repurpose then
      var sub := Submit(s, form.script, platforms, o, calls);
      RunResult(sub.state, sub.calls, if sub.outcome == Extracted then Continue else Stop,
                false, Some(sub.outcome), None)
    else
      RunResult(s, calls, Continue, false, None, None)
  }

  /** One pass of the script: the platform clamp, the "Repurpose" handler
      when it was clicked, the paywall with its "I have paid" button when the
      paywall is up, then the output sections when there are truthy blocks. */
  function Run(s: State, form: Form, action: Action, o: Oracles, calls: seq<Request>): (r: RunResult)
    ensures r.submit.Some? <==> action == Repurpose
    ensures r.flow == Rerun ==> action == ConfirmPaid || action.Redo?
    ensures action == NoClick ==> r.flow == Continue
  {
    var platforms := Clamp(form.selection, s.paid).platforms;
    var r0 := Handle(s, form, platforms, action, o, calls);
    if r0.flow != Continue then r0
    else if PaywallVisible(r0.state) && action == ConfirmPaid then
      r0.(state := ConfirmPayment(r0.state), flow := Rerun, paywallShown := true)
    else
      Render(r0.(paywallShown := PaywallVisible(r0.state)), platforms, action, form.tone, o)
  }

  /** One user interaction: a pass of the script and, when the pass ended in
      `st.rerun()`, the pass that follows with no button clicked. The
      requests of both passes are numbered together. */
  function Turn(s: State, form: Form, action: Action, o: Oracles): (r: RunResult)
    ensures r.flow != Rerun
    ensures r.submit.Some? <==> action == Repurpose
  {
    var r := Run(s, form, action, o, []);
    if r.flow == Rerun then
      var r2 := Run(r.state, form, NoClick, o, r.calls);
      r2.(submit := r.submit, redo := r.redo)
    else r
  }
}

=== FILE: extractor.dfy ===
/** The parsing half of `extract_blocks`: cut the outermost brace span out of
    the model's reply and hand it to the JSON parser.
 */
module Extractor {
  import opened Session

  /** The first index from `k` on holding `c`, or -1. */
  function FirstFrom(s: string, c: char, k: nat): (r: int)
    requires k <= |s|
    ensures r == -1 || (k <= r < |s| && s[r] == c)
    ensures forall j :: k <= j < |s| && (r == -1 || j < r) ==> s[j] != c
    decreases |s| - k
  {
    if k == |s| then -1
    else if s[k] == c then k
    else FirstFrom(s, c, k + 1)
  }

  /** Python's `str.find` for one character: the first index of `c`, or -1. */
  function Find(s: string, c: char): (r: int)
    ensures -1 <= r < |s|
    ensures r == -1 <==> c !in s
    ensures r >= 0 ==> s[r] == c && c !in s[..r]
  {
    var r := FirstFrom(s, c, 0);
    assert r >= 0 ==> s[r] in s;
    r
  }

  /** The last index below `n` holding `c`, or -1. */
  function LastBefore(s: string, c: char, n: nat): (r: int)
    requires n <= |s|
    ensures -1 <= r < n
    ensures r >= 0 ==> s[r] == c
    ensures forall j :: r < j < n ==> s[j] != c
    decreases n
  {
    if n == 0 then -1
    else if s[n - 1] == c then n - 1
    else LastBefore(s, c, n - 1)
  }

  /** Python's `str.rfind` for one character: the last index of `c`, or -1. */
  function RFind(s: string, c: char): (r: int)
    ensures -1 <= r < |s|
    ensures r == -1 <==> c !in s
    ensures r >= 0 ==> s[r] == c && c !in s[r + 1..]
  {
    var r := LastBefore(s, c, |s|);
    assert r >= 0 ==> s[r] in s;
    r
  }

  /** Python's `s[i:j]` for indices inside the string: empty when `j <= i`. */
  function Slice(s: string, i: nat, j: nat): (r: string)
    requires i <= |s| && j <= |s|
    ensures i < j ==> r == s[i..j]
    ensures j <= i ==> r == []
  {
    if i < j then s[i..j] else []
  }

  /** The text handed to `json.loads`: from the first `{` to the last `}`
      inclusive, or nothing when either brace is missing from the reply. */
  function Candidate(raw: string): (r: Option<string>)
    ensures r.None? <==> ('{' !in raw || '}' !in raw)
    ensures r.Some? && r.value != [] ==>
              r.value[0] == '{' && r.value[|r.value| - 1] == '}'
    ensures r.Some? ==> |r.value| <= |raw|
  {
    var start := Find(raw, '{');
    var end := RFind(raw, '}') + 1;
    if start == -1 || end == 0 then None
    else Some(Slice(raw, start, end))
  }

  /** `i` is the first `{` of `raw` and `k` its last `}`: a description of the
      span that does not mention the search functions. */
  ghost predicate OutermostBraces(raw: string, i: int, k: int) {
    && 0 <= i < |raw| && 0 <= k < |raw|
    && raw[i] == '{' && (forall j :: 0 <= j < i ==> raw[j] != '{')
    && raw[k] == '}' && (forall j :: k < j < |raw| ==> raw[j] != '}')
  }

  /** The first occurrence, described without `Find`, is what `Find` returns. */
  lemma FindIsFirst(s: string, c: char, i: int)
    requires 0 <= i < |s| && s[i] == c && forall j :: 0 <= j < i ==> s[j] != c
    ensures Find(s, c) == i
  {
    var f := Find(s, c);
    assert s[i] in s;
    if f < i {
      assert false;
    } else if i < f {
      assert false;
    }
  }

  /** The last occurrence, described without `RFind`, is what `RFind` returns. */
  lemma RFindIsLast(s: string, c: char, k: int)
    requires 0 <= k < |s| && s[k] == c && forall j :: k < j < |s| ==> s[j] != c
    ensures RFind(s, c) == k
  {
    var l := RFind(s, c);
    assert s[k] in s;
    if l > k {
      assert false;
    } else if k > l {
      assert false;
    }
  }

  /** A reply with both braces has an outermost span: the one the searches find. */
  lemma SearchesFindOutermostBraces(raw: string)
    requires '{' in raw && '}' in raw
    ensures OutermostBraces(raw, Find(raw, '{'), RFind(raw, '}'))
  {
    var f := Find(raw, '{');
    var l := RFind(raw, '}');
    forall j | 0 <= j < f ensures raw[j] != '{' {
      assert raw[..f][j] == raw[j];
    }
    forall j | l < j < |raw| ensures raw[j] != '}' {
      assert raw[l + 1..][j - l - 1] == raw[j];
    }
  }

  /** The candidate exists exactly when the reply has an outermost brace span,
      and it is that span, or the empty text when the last `}` comes before
      the first `{`. */
  lemma CandidateIsOutermostSpan(raw: string)
    ensures Candidate(raw).Some? <==> exists i, k :: OutermostBraces(raw, i, k)
    ensures forall i, k :: OutermostBraces(raw, i, k) ==>
              Candidate(raw) == Some(if i <= k then raw[i..k + 1] else [])
  {
    if '{' in raw && '}' in raw {
      SearchesFindOutermostBraces(raw);
    }
    forall i, k | OutermostBraces(raw, i, k)
      ensures Candidate(raw) == Some(if i <= k then raw[i..k + 1] else [])
    {
      FindIsFirst(raw, '{', i);
      RFindIsLast(raw, '}', k);
    }
  }

  /** `json.loads`, given as an oracle. The empty text is never valid JSON
      (a JSON text holds at least one value), so it fails whatever the oracle says. */
  function JsonLoads(parse: string -> Option<Blocks>, text: string): (r: Option<Blocks>)
    ensures text == [] ==> r.None?
    ensures text != [] ==> r == parse(text)
  {
    if text == [] then None else parse(text)
  }

  /** The parse step of `extract_blocks`: `None` is the path that reports
      "Failed to parse content blocks" and stops the run. */
  function ExtractBlocks(raw: string, parse: string -> Option<Blocks>): (r: Option<Blocks>)
    ensures ('{' !in raw || '}' !in raw) ==> r.None?
    ensures r.Some? ==> Candidate(raw).Some? && Candidate(raw).value != []
                        && parse(Candidate(raw).value) == r
    ensures Candidate(raw).Some? && Candidate(raw).value != [] ==> r == parse(Candidate(raw).value)
  {
    match Candidate(raw)
    case None => None
    case Some(text) => JsonLoads(parse, text)
  }

  /** A reply whose last `}` precedes its first `{` yields the empty
      candidate, so extraction fails whatever the parser would accept. */
  lemma ReversedBracesFail(raw: string, parse: string -> Option<Blocks>, i: int, k: int)
    requires OutermostBraces(raw, i, k) && k < i
    ensures Candidate(raw) == Some([])
    ensures ExtractBlocks(raw, parse).None?
  {
    CandidateIsOutermostSpan(raw);
  }
}

=== FILE: platforms.dfy ===
/** The free-plan clamp on the platform multiselect. */
module Platforms {
  import opened Session

  /** Free plan: at most two platforms per run. */
  const FreePlatformLimit: nat := 2

  /** The platforms a run works with, and whether the free-plan warning is shown. */
  datatype Clamped = Clamped(platforms: seq<Platform>, truncated: bool)

  /** An unpaid selection of more than two platforms is cut to its first two,
      in the order the user picked them; anything else passes unchanged. */
  function Clamp(selection: seq<Platform>, paid: bool): (r: Clamped)
    ensures r.platforms <= selection
    ensures r.truncated <==> |r.platforms| < |selection|
    ensures paid || |selection| <= FreePlatformLimit ==> r.platforms == selection
    ensures !paid ==> |r.platforms| <= FreePlatformLimit
    ensures !paid && |selection| > FreePlatformLimit ==> |r.platforms| == FreePlatformLimit
  {
    if !paid && |selection| > FreePlatformLimit then
      Clamped(selection[..FreePlatformLimit], true)
    else
      Clamped(selection, false)
  }

  /** Every clamped platform was selected, and an empty selection stays empty. */
  lemma ClampKeepsSelectedOnly(selection: seq<Platform>, paid: bool, p: Platform)
    ensures p in Clamp(selection, paid).platforms ==> p in selection
    ensures Clamp(selection, paid).platforms == [] <==> selection == []
  {
    var r := Clamp(selection, paid).platforms;
    if p in r {
      var i :| 0 <= i < |r| && r[i] == p;
      assert selection[i] == p;
    }
  }
}

=== FILE: policy.dfy ===
/** The access policy of the free plan: the extraction admission check of the
    "Repurpose" handler, `redo_guard`, the "I have paid" confirmation, and the
    paywall and email gates.
 */
module Policy {
  import opened Session

  /** The outcome of a gate; a denial is a decision, not an error. */
  datatype Decision = Allowed | Denied

  /** Admission of a new extraction. Only unpaid sessions that already used
      their free extraction are denied, and a denial changes nothing but the
      paywall flag, which it raises. Admission itself changes nothing: the
      counters move only once the extraction has succeeded. */
  function AdmitExtraction(s: State): (r: (State, Decision))
    ensures r.1 == Denied <==> !s.paid && s.scriptCount >= FreeScriptLimit
    ensures s.paid ==> r.1 == Allowed
    ensures r.1 == Denied ==> r.0.showPaywall && r.0.(showPaywall := s.showPaywall) == s
    ensures r.1 == Allowed ==> r.0 == s
  {
    if !s.paid && s.scriptCount >= FreeScriptLimit then
      (s.(showPaywall := true), Denied)
    else
      (s, Allowed)
  }

  /** `redo_guard`: unpaid sessions that used their three redos are denied,
      with only the paywall flag raised; every other call is granted and
      counts exactly one redo, changing nothing else. */
  function RedoGuard(s: State): (r: (State, Decision))
    ensures r.1 == Denied <==> !s.paid && s.redoCount >= FreeRedoLimit
    ensures s.paid ==> r.1 == Allowed
    ensures r.1 == Denied ==> r.0.showPaywall && r.0.(showPaywall := s.showPaywall) == s
    ensures r.1 == Allowed ==> r.0.redoCount == s.redoCount + 1 && r.0.(redoCount := s.redoCount) == s
  {
    if !s.paid && s.redoCount >= FreeRedoLimit then
      (s.(showPaywall := true), Denied)
    else
      (s.(redoCount := s.redoCount + 1), Allowed)
  }

  /** Whether the paywall section is rendered. */
  function PaywallVisible(s: State): (r: bool)
    ensures s.paid ==> !r
    ensures !s.showPaywall ==> !r
    ensures s.showPaywall && !s.paid ==> r
  {
    s.showPaywall && !s.paid
  }

  /** "I have paid": the session becomes paid for good and the paywall is
      dismissed; nothing else changes. */
  function ConfirmPayment(s: State): (t: State)
    ensures t.paid && !t.showPaywall && !PaywallVisible(t)
    ensures t.(paid := s.paid, showPaywall := s.showPaywall) == s
  {
    s.(paid := true, showPaywall := false)
  }

  /** Whether a selected platform's output section is rendered: the email
      newsletter only for a paid session, the others whenever selected. */
  function Renders(p: Platform, platforms: seq<Platform>, paid: bool): (r: bool)
    ensures r ==> p in platforms
    ensures p == Email && !paid ==> !r
    ensures p != Email ==> (r <==> p in platforms)
    ensures paid ==> (r <==> p in platforms)
  {
    p in platforms && (p == Email ==> paid)
  }

  /** Each gate preserves the session invariant (the email gate in the form
      "no email slot is filled while unpaid", which paying cannot break). */
  lemma GatesPreserveValid(s: State)
    requires Valid(s)
    ensures Valid(AdmitExtraction(s).0)
    ensures HasOutputs(s) ==> Valid(RedoGuard(s).0)
    ensures Valid(ConfirmPayment(s))
  {
  }
}

=== FILE: properties.dfy ===
/** Properties of whole sessions: sequences of interactions from a state,
    the free-plan budgets they respect, and two worked scenarios.
 */
module Properties {
  import opened Session
  import opened Platforms
  import opened Policy
  import opened Controller
  import opened Runs
  import opened Turns

  /** One user interaction: the widget values, the button, and the replies. */
  datatype Step = Step(form: Form, action: Action, oracles: Oracles)

  function TurnOf(s: State, step: Step): RunResult {
    Turn(s, step.form, step.action, step.oracles)
  }

  /** The session after the interactions `steps`, in order. */
  function Replay(s: State, steps: seq<Step>): State
    decreases |steps|
  {
    if steps == [] then s else Replay(TurnOf(s, steps[0]).state, steps[1..])
  }

  /** How many of the interactions had a redo granted by `redo_guard`. */
  function Granted(s: State, steps: seq<Step>): nat
    decreases |steps|
  {
    if steps == [] then 0
    else
      var t := TurnOf(s, steps[0]);
      (if t.redo == Some(Allowed) then 1 else 0) + Granted(t.state, steps[1..])
  }

  /** How many of the interactions extracted new blocks. */
  function Extractions(s: State, steps: seq<Step>): nat
    decreases |steps|
  {
    if steps == [] then 0
    else
      var t := TurnOf(s, steps[0]);
      (if t.submit == Some(Extracted) then 1 else 0) + Extractions(t.state, steps[1..])
  }

  /** Every session reached from a valid one is valid, and once paid it stays paid. */
  lemma {:induction false} ReplayValid(s: State, steps: seq<Step>)
    requires Valid(s)
    ensures Valid(Replay(s, steps))
    ensures s.paid ==> Replay(s, steps).paid
    decreases |steps|
  {
    if steps != [] {
      var t := TurnOf(s, steps[0]);
      TurnValid(s, steps[0].form, steps[0].action, steps[0].oracles, t);
      TurnPayment(s, steps[0].form, steps[0].action, steps[0].oracles, t);
      ReplayValid(t.state, steps[1..]);
    }
  }

  /** The script count is the number of successful extractions. */
  lemma {:induction false} ScriptCountCountsExtractions(s: State, steps: seq<Step>)
    ensures Replay(s, steps).scriptCount == s.scriptCount + Extractions(s, steps)
    decreases |steps|
  {
    if steps != [] {
      var t := TurnOf(s, steps[0]);
      TurnCounters(s, steps[0].form, steps[0].action, steps[0].oracles, t);
      ScriptCountCountsExtractions(t.state, steps[1..]);
    }
  }

  /** With no new extraction in between, the redo count grows by exactly the
      number of granted redos, whichever platforms they were for. */
  lemma {:induction false} RedoCountCountsGrants(s: State, steps: seq<Step>)
    requires Extractions(s, steps) == 0
    ensures Replay(s, steps).redoCount == s.redoCount + Granted(s, steps)
    decreases |steps|
  {
    if steps != [] {
      var t := TurnOf(s, steps[0]);
      TurnCounters(s, steps[0].form, steps[0].action, steps[0].oracles, t);
      RedoCountCountsGrants(t.state, steps[1..]);
    }
  }

  /** A session that ends unpaid was granted at most three redos since its
      last extraction, counted over all platforms together. */
  lemma FreeRedoBudget(s: State, steps: seq<Step>)
    requires Valid(s) && Extractions(s, steps) == 0
    requires !Replay(s, steps).paid
    ensures s.redoCount + Granted(s, steps) <= FreeRedoLimit
  {
    ReplayValid(s, steps);
    RedoCountCountsGrants(s, steps);
  }

  /** A session that ends unpaid extracted at most once since it started. */
  lemma FreeScriptBudget(steps: seq<Step>)
    requires !Replay(Init, steps).paid
    ensures Extractions(Init, steps) <= FreeScriptLimit
  {
    InitValid();
    ReplayValid(Init, steps);
    ScriptCountCountsExtractions(Init, steps);
  }

  /** Rendering again with the same widget values and no click asks the
      model nothing and changes nothing: every rendered slot is a cache
      filled by the first rendering. */
  lemma IdleRerenderAsksNothing(s: State, form: Form, o1: Oracles, o2: Oracles)
    ensures Turn(Turn(s, form, NoClick, o1).state, form, NoClick, o2).calls == []
    ensures Turn(Turn(s, form, NoClick, o1).state, form, NoClick, o2).state
            == Turn(s, form, NoClick, o1).state
  {
    var t1 := Turn(s, form, NoClick, o1);
    TurnSlots(s, form, NoClick, o1, t1);
    RunIdleFilled(t1.state, form, o2, []);
  }

  /** A denial raises the paywall flag, but a denied "Repurpose" click stops
      before the paywall section, so the paywall is first rendered by the
      next interaction that is neither a "Repurpose" click nor the payment
      confirmation. */
  lemma DeniedExtractionShowsPaywallNextTime(s: State, form: Form, o: Oracles,
                                             form': Form, action': Action, o': Oracles)
    requires Valid(s) && !s.paid && s.scriptCount >= FreeScriptLimit
    requires action' == NoClick || action'.Redo?
    ensures !Turn(s, form, Repurpose, o).paywallShown
    ensures PaywallVisible(Turn(s, form, Repurpose, o).state)
    ensures Turn(Turn(s, form, Repurpose, o).state, form', action', o').paywallShown
  {
    var t := Turn(s, form, Repurpose, o);
    TurnDecisions(s, form, Repurpose, o, t);
    TurnPayment(t.state, form', action', o', Turn(t.state, form', action', o'));
  }

  /** The "I have paid" click behind a visible paywall unlocks the session
      for good: every later extraction and redo is admitted. */
  lemma PaymentUnlocks(s: State, form: Form, o: Oracles, steps: seq<Step>, step: Step)
    requires Valid(s) && PaywallVisible(s)
    ensures Turn(s, form, ConfirmPaid, o).state.paid
    ensures !Turn(s, form, ConfirmPaid, o).state.showPaywall
    ensures TurnOf(Replay(Turn(s, form, ConfirmPaid, o).state, steps), step).submit != Some(LimitReached)
    ensures TurnOf(Replay(Turn(s, form, ConfirmPaid, o).state, steps), step).redo != Some(Denied)
  {
    var t := Turn(s, form, ConfirmPaid, o);
    TurnPayment(s, form, ConfirmPaid, o, t);
    TurnValid(s, form, ConfirmPaid, o, t);
    ReplayValid(t.state, steps);
    var u := Replay(t.state, steps);
    TurnDecisions(u, step.form, step.action, step.oracles, TurnOf(u, step));
  }

  /** A reply with no `{` or no `}` fails the extraction: the session is
      left exactly as it was, and only the extraction request was sent. */
  lemma BracelessReplyFails(s: State, form: Form, o: Oracles)
    requires s.paid || s.scriptCount < FreeScriptLimit
    requires form.script != [] && form.selection != []
    requires '{' !in o.complete(0, Extraction(form.script)) || '}' !in o.complete(0, Extraction(form.script))
    ensures Turn(s, form, Repurpose, o).submit == Some(ParseFailed)
    ensures Turn(s, form, Repurpose, o).state == s
    ensures Turn(s, form, Repurpose, o).calls == [Extraction(form.script)]
  {
    var t := Turn(s, form, Repurpose, o);
    ClampKeepsSelectedOnly(form.selection, s.paid, Twitter);
    TurnDecisions(s, form, Repurpose, o, t);
  }
}

=== FILE: runs.dfy ===
/** What the output sections and one pass of the script do to the session,
    grouped by concern. */
module Runs {
  import opened Session
  import opened Platforms
  import opened Policy
  import opened Controller

  /** The output sections change neither the blocks, nor the script count,
      nor `paid`, nor what the earlier part of the pass recorded, nor the
      slot of a platform that has no section among them. */
  lemma {:induction false} OutputsFrame(r: RunResult, order: seq<Platform>, platforms: seq<Platform>, action: Action,
                                    b: Blocks, tone: Tone, o: Oracles, r': RunResult)
    requires r.flow == Continue ==> r.redo == None
    requires r' == Outputs(r, order, platforms, action, b, tone, o)
    ensures r'.state.blocks == r.state.blocks && r'.state.scriptCount == r.state.scriptCount
            && r'.state.paid == r.state.paid
    ensures r'.submit == r.submit && r'.paywallShown == r.paywallShown
    ensures forall q :: q !in order ==> SlotOf(r'.state.slots, q) == SlotOf(r.state.slots, q)
    decreases |order|
  {
    if order != [] {
      var r1 := Section(r, order[0], platforms, action, b, tone, o);
      OutputsFrame(r1, order[1..], platforms, action, b, tone, o, Outputs(r1, order[1..], platforms, action, b, tone, o));
    }
  }

  /** Across the output sections the redo count grows by one exactly when a
      redo is granted, and the paywall flag is raised exactly when one is
      denied; with no decision taken the pass ends as it began. */
  lemma {:induction false} OutputsCounts(r: RunResult, order: seq<Platform>, platforms: seq<Platform>, action: Action,
                                    b: Blocks, tone: Tone, o: Oracles, r': RunResult)
    requires r.flow == Continue ==> r.redo == None
    requires r' == Outputs(r, order, platforms, action, b, tone, o)
    ensures r'.state.showPaywall == (r.state.showPaywall || (r'.redo == Some(Denied) && r.redo == None))
    ensures r'.state.redoCount == r.state.redoCount + (if r'.redo == Some(Allowed) && r.redo == None then 1 else 0)
    ensures r'.redo == r.redo ==> r'.flow == r.flow
    decreases |order|
  {
    if order != [] {
      var r1 := Section(r, order[0], platforms, action, b, tone, o);
      OutputsCounts(r1, order[1..], platforms, action, b, tone, o, Outputs(r1, order[1..], platforms, action, b, tone, o));
    }
  }

  /** A decision is taken only for a redo click on a rendered section among
      them; a denial stops the pass for an unpaid session with three redos
      used, and a grant reruns it with the clicked platform's slot holding
      the last reply. */
  lemma {:induction false} OutputsRedo(r: RunResult, order: seq<Platform>, platforms: seq<Platform>, action: Action,
                                    b: Blocks, tone: Tone, o: Oracles, r': RunResult)
    requires r.flow == Continue ==> r.redo == None
    requires r' == Outputs(r, order, platforms, action, b, tone, o)
    ensures r'.redo != r.redo ==>
              && r.flow == Continue && r.redo == None && action.Redo?
              && action.platform in order && Renders(action.platform, platforms, r.state.paid)
    ensures r'.redo == Some(Denied) && r.redo == None ==>
              r'.flow == Stop && !r.state.paid && r.state.redoCount >= FreeRedoLimit
    ensures r'.redo == Some(Allowed) && r.redo == None ==>
              && r'.flow == Rerun && |r'.calls| > 0 && action.Redo?
              && SlotOf(r'.state.slots, action.platform)
                 == Some(o.complete(|r'.calls| - 1, Generation(action.platform, b, tone)))
    decreases |order|
  {
    if order != [] {
      var r1 := Section(r, order[0], platforms, action, b, tone, o);
      OutputsRedo(r1, order[1..], platforms, action, b, tone, o, Outputs(r1, order[1..], platforms, action, b, tone, o));
    }
  }

  /** Every request of the output sections is a generation, with the pass's
      blocks and tone, for a rendered platform whose slot was empty or whose
      redo was granted. */
  lemma {:induction false} OutputsRequests(r: RunResult, order: seq<Platform>, platforms: seq<Platform>, action: Action,
                                    b: Blocks, tone: Tone, o: Oracles, r': RunResult)
    requires r.flow == Continue ==> r.redo == None
    requires r' == Outputs(r, order, platforms, action, b, tone, o)
    ensures r.calls <= r'.calls
    ensures forall i :: |r.calls| <= i < |r'.calls| ==>
              && r'.calls[i].Generation? && r'.calls[i].blocks == b && r'.calls[i].tone == tone
              && r'.calls[i].platform in order
              && Renders(r'.calls[i].platform, platforms, r.state.paid)
              && (|| SlotOf(r.state.slots, r'.calls[i].platform).None?
                  || (action == Redo(r'.calls[i].platform) && r'.redo == Some(Allowed) && r.redo == None))
    decreases |order|
  {
    if order != [] {
      var r1 := Section(r, order[0], platforms, action, b, tone, o);
      OutputsRequests(r1, order[1..], platforms, action, b, tone, o, Outputs(r1, order[1..], platforms, action, b, tone, o));
    }
  }

  /** A filled slot stays filled and is replaced only after a granted redo
      of its platform; sections that run to the end leave every rendered slot
      filled; with no click, sections that ask nothing change nothing. */
  lemma {:induction false} OutputsSlots(r: RunResult, order: seq<Platform>, platforms: seq<Platform>, action: Action,
                                    b: Blocks, tone: Tone, o: Oracles, r': RunResult)
    requires r.flow == Continue ==> r.redo == None
    requires r' == Outputs(r, order, platforms, action, b, tone, o)
    ensures forall q :: SlotOf(r.state.slots, q).Some? ==> SlotOf(r'.state.slots, q).Some?
    ensures forall q :: SlotOf(r.state.slots, q).Some? && SlotOf(r'.state.slots, q) != SlotOf(r.state.slots, q) ==>
              action == Redo(q) && r'.redo == Some(Allowed) && r.redo == None
    ensures r.flow == Continue && r'.flow == Continue ==>
              forall q :: q in order && Renders(q, platforms, r.state.paid) ==> SlotOf(r'.state.slots, q).Some?
    ensures action == NoClick && |r'.calls| == |r.calls| ==> r' == r
    decreases |order|
  {
    if order != [] {
      var r1 := Section(r, order[0], platforms, action, b, tone, o);
      OutputsSlots(r1, order[1..], platforms, action, b, tone, o, Outputs(r1, order[1..], platforms, action, b, tone, o));
      OutputsRequests(r1, order[1..], platforms, action, b, tone, o, Outputs(r1, order[1..], platforms, action, b, tone, o));
    }
  }

  /** The output sections keep the session invariant. */
  lemma {:induction false} OutputsValid(r: RunResult, order: seq<Platform>, platforms: seq<Platform>, action: Action,
                                    b: Blocks, tone: Tone, o: Oracles, r': RunResult)
    requires r.flow == Continue ==> r.redo == None
    requires r' == Outputs(r, order, platforms, action, b, tone, o)
    requires Valid(r.state) && r.state.blocks == Some(b) && Truthy(b)
    ensures Valid(r'.state)
    decreases |order|
  {
    if order != [] {
      var r1 := Section(r, order[0], platforms, action, b, tone, o);
      OutputsValid(r1, order[1..], platforms, action, b, tone, o, Outputs(r1, order[1..], platforms, action, b, tone, o));
    }
  }

  /** Among the output sections, only a granted redo asks for a rerun, and
      with no click every section runs to the end. */
  lemma {:induction false} OutputsFlow(r: RunResult, order: seq<Platform>, platforms: seq<Platform>, action: Action,
                                    b: Blocks, tone: Tone, o: Oracles, r': RunResult)
    requires r.flow == Continue && r.redo == None
    requires r' == Outputs(r, order, platforms, action, b, tone, o)
    ensures r'.flow == Rerun ==> r'.redo == Some(Allowed)
    ensures action == NoClick ==> r'.flow == Continue && r'.redo == None
    decreases |order|
  {
    if order != [] {
      var r1 := Section(r, order[0], platforms, action, b, tone, o);
      if r1.flow == Continue {
        OutputsFlow(r1, order[1..], platforms, action, b, tone, o, Outputs(r1, order[1..], platforms, action, b, tone, o));
      }
    }
  }

  /** Only the "I have paid" button sets `paid`, only when the paywall is up,
      and nothing unsets it; the paywall flag is raised only by a denial and
      lowered only by the confirmation; the paywall section is rendered when
      the pass reaches it with the flag up in an unpaid session. */
  lemma RunPayment(s: State, form: Form, action: Action, o: Oracles, calls: seq<Request>, r: RunResult)
    requires r == Run(s, form, action, o, calls)
    ensures s.paid ==> r.state.paid
    ensures r.state.paid != s.paid ==>
              action == ConfirmPaid && PaywallVisible(s) && r.flow == Rerun && r.redo == None
    ensures r.state.showPaywall && !s.showPaywall ==>
              r.submit == Some(LimitReached) || r.redo == Some(Denied)
    ensures s.showPaywall && !r.state.showPaywall ==> action == ConfirmPaid && r.state.paid
    ensures action != Repurpose ==> (r.paywallShown <==> PaywallVisible(s))
    ensures action == Repurpose ==>
              (r.paywallShown <==> r.submit == Some(Extracted) && PaywallVisible(s))
    ensures action == ConfirmPaid && PaywallVisible(s) ==>
              r.state.paid && !r.state.showPaywall && r.flow == Rerun
  {
    var platforms := Clamp(form.selection, s.paid).platforms;
    var r0 := Handle(s, form, platforms, action, o, calls);
    if r0.flow == Continue && !(PaywallVisible(r0.state) && action == ConfirmPaid) {
      var r1 := r0.(paywallShown := PaywallVisible(r0.state));
      if HasOutputs(r1.state) {
        OutputsFrame(r1, SectionOrder, platforms, action, r1.state.blocks.value, form.tone, o, r);
        OutputsCounts(r1, SectionOrder, platforms, action, r1.state.blocks.value, form.tone, o, r);
        OutputsRedo(r1, SectionOrder, platforms, action, r1.state.blocks.value, form.tone, o, r);
      }
    }
  }

  /** The admission check as seen from a pass: a paid session is never
      denied, and admission is decided before the input is looked at; a denial leaves
      everything but the paywall flag as it was and asks nothing; a missing
      input or a failed parse leaves the session unchanged. */
  lemma RunAdmission(s: State, form: Form, action: Action, o: Oracles, calls: seq<Request>, r: RunResult)
    requires r == Run(s, form, action, o, calls)
    ensures s.paid ==> r.submit != Some(LimitReached)
    ensures r.submit.Some? <==> action == Repurpose
    ensures r.submit == Some(LimitReached) <==>
              action == Repurpose && !s.paid && s.scriptCount >= FreeScriptLimit
    ensures r.submit == Some(LimitReached) ==>
              r.state == s.(showPaywall := true) && r.calls == calls && r.flow == Stop
    ensures r.submit == Some(MissingInput) ==> r.state == s && r.calls == calls && r.flow == Stop
    ensures r.submit == Some(ParseFailed) ==>
              r.state == s && r.calls == calls + [Extraction(form.script)] && r.flow == Stop
  {
  }

  /** `redo_guard` as seen from a pass: it runs only for a redo click, never
      denies a paid session, and a denial stops the pass with the paywall
      flag raised. */
  lemma RunRedo(s: State, form: Form, action: Action, o: Oracles, calls: seq<Request>, r: RunResult)
    requires r == Run(s, form, action, o, calls)
    ensures s.paid ==> r.redo != Some(Denied)
    ensures r.redo.Some? ==> action.Redo?
    ensures r.redo == Some(Denied) ==>
              && r.flow == Stop && r.state.showPaywall && !s.paid && s.redoCount >= FreeRedoLimit
  {
  }

  /** A rerun follows only a granted redo or the payment confirmation, and a
      pass with no click runs to the end with no decision taken. */
  lemma RunFlow(s: State, form: Form, action: Action, o: Oracles, calls: seq<Request>, r: RunResult)
    requires r == Run(s, form, action, o, calls)
    ensures r.flow == Rerun ==> r.redo == Some(Allowed) || (action == ConfirmPaid && r.redo == None)
    ensures action == NoClick ==> r.flow == Continue && r.submit == None && r.redo == None
  {
    var platforms := Clamp(form.selection, s.paid).platforms;
    var r0 := Handle(s, form, platforms, action, o, calls);
    if r0.flow == Continue && !(PaywallVisible(r0.state) && action == ConfirmPaid) {
      var r1 := r0.(paywallShown := PaywallVisible(r0.state));
      if HasOutputs(r1.state) {
        OutputsFlow(r1, SectionOrder, platforms, action, r1.state.blocks.value, form.tone, o, r);
      }
    }
  }

  /** A successful extraction counts one script and restarts the redo count;
      otherwise the blocks and the script count stay, and the redo count moves
      by exactly the one redo granted, if any. */
  lemma RunCounters(s: State, form: Form, action: Action, o: Oracles, calls: seq<Request>, r: RunResult)
    requires r == Run(s, form, action, o, calls)
    ensures r.submit == Some(Extracted) ==>
              && r.state.blocks.Some? && r.state.scriptCount == s.scriptCount + 1
              && r.state.redoCount == 0
    ensures r.submit != Some(Extracted) ==>
              && r.state.blocks == s.blocks && r.state.scriptCount == s.scriptCount
              && r.state.redoCount == s.redoCount + (if r.redo == Some(Allowed) then 1 else 0)
  {
    var platforms := Clamp(form.selection, s.paid).platforms;
    var r0 := Handle(s, form, platforms, action, o, calls);
    if r0.flow == Continue && !(PaywallVisible(r0.state) && action == ConfirmPaid) {
      var r1 := r0.(paywallShown := PaywallVisible(r0.state));
      if HasOutputs(r1.state) {
        OutputsFrame(r1, SectionOrder, platforms, action, r1.state.blocks.value, form.tone, o, r);
        OutputsCounts(r1, SectionOrder, platforms, action, r1.state.blocks.value, form.tone, o, r);
        OutputsRedo(r1, SectionOrder, platforms, action, r1.state.blocks.value, form.tone, o, r);
      }
    }
  }

  /** A pass only appends to the request log, and the extraction it may
      add comes first and only on a "Repurpose" click. */
  lemma RunRequests(s: State, form: Form, action: Action, o: Oracles, calls: seq<Request>, r: RunResult)
    requires r == Run(s, form, action, o, calls)
    ensures calls <= r.calls
    ensures forall i :: |calls| <= i < |r.calls| && r.calls[i].Extraction? ==>
              i == |calls| && r.calls[i] == Extraction(form.script) && action == Repurpose
  {
    var platforms := Clamp(form.selection, s.paid).platforms;
    var r0 := Handle(s, form, platforms, action, o, calls);
    if r0.flow == Continue && !(PaywallVisible(r0.state) && action == ConfirmPaid) {
      var r1 := r0.(paywallShown := PaywallVisible(r0.state));
      if HasOutputs(r1.state) {
        OutputsRequests(r1, SectionOrder, platforms, action, r1.state.blocks.value, form.tone, o, r);
      }
    }
  }

  /** Every generation of a pass is for a platform rendered under the clamp
      (so never the email for an unpaid session), while the outputs are up,
      and for a slot that was empty, was just cleared, or was granted a redo. */
  lemma RunGenerations(s: State, form: Form, action: Action, o: Oracles, calls: seq<Request>, r: RunResult)
    requires r == Run(s, form, action, o, calls)
    ensures forall i :: |calls| <= i < |r.calls| && r.calls[i].Generation? ==>
              Renders(r.calls[i].platform, Clamp(form.selection, s.paid).platforms, s.paid)
    ensures forall i :: |calls| <= i < |r.calls| && r.calls[i].Generation? ==>
              || SlotOf(s.slots, r.calls[i].platform).None?
              || r.submit == Some(Extracted)
              || (action == Redo(r.calls[i].platform) && r.redo == Some(Allowed))
    ensures forall i :: |calls| <= i < |r.calls| && r.calls[i].Generation? ==> HasOutputs(r.state)
  {
    var platforms := Clamp(form.selection, s.paid).platforms;
    var r0 := Handle(s, form, platforms, action, o, calls);
    if r0.flow == Continue && !(PaywallVisible(r0.state) && action == ConfirmPaid) {
      var r1 := r0.(paywallShown := PaywallVisible(r0.state));
      if HasOutputs(r1.state) {
        OutputsFrame(r1, SectionOrder, platforms, action, r1.state.blocks.value, form.tone, o, r);
        OutputsRequests(r1, SectionOrder, platforms, action, r1.state.blocks.value, form.tone, o, r);
      }
    }
  }

  /** A filled slot stays filled unless a new extraction clears it, and it
      changes only after a granted redo of its own platform. */
  lemma RunSlots(s: State, form: Form, action: Action, o: Oracles, calls: seq<Request>, r: RunResult)
    requires r == Run(s, form, action, o, calls)
    ensures forall q :: SlotOf(s.slots, q).Some? && r.submit != Some(Extracted) ==>
              SlotOf(r.state.slots, q).Some?
    ensures forall q :: SlotOf(s.slots, q).Some? && SlotOf(r.state.slots, q) != SlotOf(s.slots, q) ==>
              r.submit == Some(Extracted) || (action == Redo(q) && r.redo == Some(Allowed))
  {
    var platforms := Clamp(form.selection, s.paid).platforms;
    var r0 := Handle(s, form, platforms, action, o, calls);
    if r0.flow == Continue && !(PaywallVisible(r0.state) && action == ConfirmPaid) {
      var r1 := r0.(paywallShown := PaywallVisible(r0.state));
      if HasOutputs(r1.state) {
        OutputsFrame(r1, SectionOrder, platforms, action, r1.state.blocks.value, form.tone, o, r);
        OutputsSlots(r1, SectionOrder, platforms, action, r1.state.blocks.value, form.tone, o, r);
      }
    }
  }

  /** A pass that runs to the end leaves every rendered slot filled; a pass
      with no click that asks nothing changes nothing. */
  lemma RunSlotsFilled(s: State, form: Form, action: Action, o: Oracles, calls: seq<Request>, r: RunResult)
    requires r == Run(s, form, action, o, calls)
    ensures r.flow == Continue ==>
              forall q :: HasOutputs(r.state) && Renders(q, Clamp(form.selection, s.paid).platforms, s.paid) ==>
                SlotOf(r.state.slots, q).Some?
    ensures action == NoClick && |r.calls| == |calls| ==> r.state == s
  {
    var platforms := Clamp(form.selection, s.paid).platforms;
    var r0 := Handle(s, form, platforms, action, o, calls);
    if r0.flow == Continue && !(PaywallVisible(r0.state) && action == ConfirmPaid) {
      var r1 := r0.(paywallShown := PaywallVisible(r0.state));
      if HasOutputs(r1.state) {
        OutputsFrame(r1, SectionOrder, platforms, action, r1.state.blocks.value, form.tone, o, r);
        OutputsSlots(r1, SectionOrder, platforms, action, r1.state.blocks.value, form.tone, o, r);
      }
    }
  }

  /** A pass keeps the session invariant. */
  lemma RunValid(s: State, form: Form, action: Action, o: Oracles, calls: seq<Request>, r: RunResult)
    requires r == Run(s, form, action, o, calls)
    requires Valid(s)
    ensures Valid(r.state)
  {
    var platforms := Clamp(form.selection, s.paid).platforms;
    var r0 := Handle(s, form, platforms, action, o, calls);
    GatesPreserveValid(s);
    if r0.flow == Continue && !(PaywallVisible(r0.state) && action == ConfirmPaid) {
      var r1 := r0.(paywallShown := PaywallVisible(r0.state));
      if HasOutputs(r1.state) {
        OutputsValid(r1, SectionOrder, platforms, action, r1.state.blocks.value, form.tone, o, r);
      }
    }
  }
  /** Sections that are not rendered, or are filled and not clicked, leave the
      pass as it is. */
  lemma {:induction false} OutputsSkip(r: RunResult, order: seq<Platform>, platforms: seq<Platform>,
                                       action: Action, b: Blocks, tone: Tone, o: Oracles)
    requires r.flow == Continue ==> r.redo == None
    requires forall i :: 0 <= i < |order| ==>
               !Renders(order[i], platforms, r.state.paid)
               || (SlotOf(r.state.slots, order[i]).Some? && action != Redo(order[i]))
    ensures Outputs(r, order, platforms, action, b, tone, o) == r
    decreases |order|
  {
    if order != [] {
      assert Section(r, order[0], platforms, action, b, tone, o) == r;
      forall i | 0 <= i < |order[1..]|
        ensures !Renders(order[1..][i], platforms, r.state.paid)
                || (SlotOf(r.state.slots, order[1..][i]).Some? && action != Redo(order[1..][i]))
      {
        assert order[1..][i] == order[i + 1];
      }
      OutputsSkip(r, order[1..], platforms, action, b, tone, o);
    }
  }

  /** A pass with no click over a session whose rendered slots are all
      filled asks nothing and changes nothing. */
  lemma RunIdleFilled(s: State, form: Form, o: Oracles, calls: seq<Request>)
    requires forall q :: HasOutputs(s) && Renders(q, Clamp(form.selection, s.paid).platforms, s.paid) ==>
               SlotOf(s.slots, q).Some?
    ensures Run(s, form, NoClick, o, calls) == RunResult(s, calls, Continue, PaywallVisible(s), None, None)
  {
    var r1 := RunResult(s, calls, Continue, PaywallVisible(s), None, None);
    if HasOutputs(s) {
      OutputsSkip(r1, SectionOrder, Clamp(form.selection, s.paid).platforms, NoClick, s.blocks.value, form.tone, o);
    }
  }
}

=== FILE: scenarios.dfy ===
/** Worked interactions: the first extraction of a fresh session, and the
    free redo allowance running out on one thread.
 */
module Scenarios {
  import opened Session
  import opened Platforms
  import opened Extractor
  import opened Policy
  import opened Controller
  import opened Runs
  import opened Turns

  /** A rendered section with an empty slot and no redo click on it asks the
      generator once and stores the reply. */
  lemma SectionFillsEmpty(r: RunResult, p: Platform, platforms: seq<Platform>, action: Action,
                          b: Blocks, tone: Tone, o: Oracles)
    requires r.flow == Continue && r.redo == None
    requires Renders(p, platforms, r.state.paid) && SlotOf(r.state.slots, p).None? && action != Redo(p)
    ensures Section(r, p, platforms, action, b, tone, o)
            == r.(state := r.state.(slots := WithSlot(r.state.slots, p,
                                       Some(o.complete(|r.calls|, Generation(p, b, tone))))),
                  calls := r.calls + [Generation(p, b, tone)])
  {
  }

  /** A redo click on a rendered, filled section: `redo_guard` decides, and a
      grant replaces the slot with the one new reply and asks for a rerun. */
  lemma SectionRedoFilled(r: RunResult, p: Platform, platforms: seq<Platform>,
                          b: Blocks, tone: Tone, o: Oracles)
    requires r.flow == Continue && r.redo == None
    requires Renders(p, platforms, r.state.paid) && SlotOf(r.state.slots, p).Some?
    ensures var r' := Section(r, p, platforms, Redo(p), b, tone, o);
            if !r.state.paid && r.state.redoCount >= FreeRedoLimit then
              r' == r.(state := r.state.(showPaywall := true), flow := Stop, redo := Some(Denied))
            else
              r' == r.(state := r.state.(redoCount := r.state.redoCount + 1,
                                         slots := WithSlot(r.state.slots, p,
                                                    Some(o.complete(|r.calls|, Generation(p, b, tone))))),
                       calls := r.calls + [Generation(p, b, tone)], flow := Rerun, redo := Some(Allowed))
  {
  }

  /** The state a fresh session is in after extracting `b`. */
  function Extracted1(b: Blocks): (s: State)
    ensures s.blocks == Some(b) && s.scriptCount == 1 && s.redoCount == 0
    ensures s.slots == EmptySlots && !s.paid && !s.showPaywall
  {
    Init.(blocks := Some(b), scriptCount := 1)
  }

  /** The handler part of the first pass of a first extraction: the clamp
      keeps two platforms, the blocks are stored and the script counted,
      and the pass goes on to the output sections. */
  lemma FirstExtractionHandled(script: string, tone: Tone, o: Oracles, b: Blocks)
    requires script != []
    requires ExtractBlocks(o.complete(0, Extraction(script)), o.parse) == Some(b) && Truthy(b)
    ensures Run(Init, Form(script, [Twitter, Instagram, Email], tone), Repurpose, o, [])
            == Outputs(RunResult(Extracted1(b), [Extraction(script)], Continue, false, Some(Extracted), None),
                       SectionOrder, [Twitter, Instagram], Repurpose, b, tone, o)
  {
    var form := Form(script, [Twitter, Instagram, Email], tone);
    assert Clamp(form.selection, false).platforms == [Twitter, Instagram];
    assert Handle(Init, form, [Twitter, Instagram], Repurpose, o, [])
           == RunResult(Extracted1(b), [Extraction(script)], Continue, false, Some(Extracted), None);
  }

  /** The output sections of that pass: Twitter then Instagram are generated
      into empty slots, LinkedIn is not selected and Email is not kept. */
  lemma FirstExtractionOutputs(r1: RunResult, tone: Tone, o: Oracles, b: Blocks)
    requires r1.flow == Continue && r1.redo == None && r1.state.slots == EmptySlots
    ensures var tw := Generation(Twitter, b, tone);
            var ig := Generation(Instagram, b, tone);
            Outputs(r1, SectionOrder, [Twitter, Instagram], Repurpose, b, tone, o)
            == r1.(state := r1.state.(slots := Slots(Some(o.complete(|r1.calls|, tw)),
                                                      Some(o.complete(|r1.calls| + 1, ig)), None, None)),
                   calls := r1.calls + [tw, ig])
  {
    var platforms := [Twitter, Instagram];
    var a := Section(r1, Twitter, platforms, Repurpose, b, tone, o);
    SectionFillsEmpty(r1, Twitter, platforms, Repurpose, b, tone, o);
    var c := Section(a, Instagram, platforms, Repurpose, b, tone, o);
    SectionFillsEmpty(a, Instagram, platforms, Repurpose, b, tone, o);
    assert c.calls == r1.calls + [Generation(Twitter, b, tone), Generation(Instagram, b, tone)];
    assert Outputs(r1, SectionOrder, platforms, Repurpose, b, tone, o)
           == Outputs(a, [Instagram, LinkedIn, Email], platforms, Repurpose, b, tone, o);
    assert Outputs(a, [Instagram, LinkedIn, Email], platforms, Repurpose, b, tone, o)
           == Outputs(c, [LinkedIn, Email], platforms, Repurpose, b, tone, o);
    OutputsSkip(c, [LinkedIn, Email], platforms, Repurpose, b, tone, o);
  }

  /** The first extraction of a fresh unpaid session with Twitter, Instagram
      and Email selected: the clamp keeps Twitter and Instagram, the script is
      counted, the two kept platforms are generated in that order and the
      email is not; a second "Repurpose" click before paying is then denied
      and only raises the paywall flag. */
  lemma ScenarioFirstExtraction(script: string, tone: Tone, o: Oracles, b: Blocks,
                                form': Form, o': Oracles)
    requires script != []
    requires ExtractBlocks(o.complete(0, Extraction(script)), o.parse) == Some(b) && Truthy(b)
    ensures Clamp([Twitter, Instagram, Email], false) == Clamped([Twitter, Instagram], true)
    ensures var t := Turn(Init, Form(script, [Twitter, Instagram, Email], tone), Repurpose, o);
            && t.submit == Some(Extracted)
            && t.state.blocks == Some(b) && t.state.scriptCount == 1 && t.state.redoCount == 0
            && t.calls == [Extraction(script), Generation(Twitter, b, tone), Generation(Instagram, b, tone)]
            && t.state.slots == Slots(Some(o.complete(1, Generation(Twitter, b, tone))),
                                      Some(o.complete(2, Generation(Instagram, b, tone))),
                                      None, None)
            && !t.state.paid && !t.state.showPaywall
    ensures var t := Turn(Init, Form(script, [Twitter, Instagram, Email], tone), Repurpose, o);
            var u := Turn(t.state, form', Repurpose, o');
            u.submit == Some(LimitReached) && u.state == t.state.(showPaywall := true) && u.calls == []
  {
    var form := Form(script, [Twitter, Instagram, Email], tone);
    FirstExtractionHandled(script, tone, o, b);
    FirstExtractionOutputs(RunResult(Extracted1(b), [Extraction(script)], Continue, false, Some(Extracted), None),
                           tone, o, b);
    var t := Turn(Init, form, Repurpose, o);
    assert t == Run(Init, form, Repurpose, o, []);
    TurnDecisions(t.state, form', Repurpose, o', Turn(t.state, form', Repurpose, o'));
  }

  /** The first pass of a redo click on Twitter when Twitter alone is selected. */
  lemma RedoTwitterPass(s: State, form: Form, o: Oracles, b: Blocks)
    requires form.selection == [Twitter]
    requires s.blocks == Some(b) && Truthy(b) && s.slots.twitter.Some?
    ensures var r := Run(s, form, Redo(Twitter), o, []);
            if !s.paid && s.redoCount >= FreeRedoLimit then
              r == RunResult(s.(showPaywall := true), [], Stop, PaywallVisible(s), None, Some(Denied))
            else
              r == RunResult(s.(redoCount := s.redoCount + 1,
                                slots := s.slots.(twitter := Some(o.complete(0, Generation(Twitter, b, form.tone))))),
                             [Generation(Twitter, b, form.tone)], Rerun, PaywallVisible(s), None, Some(Allowed))
  {
    var platforms := [Twitter];
    assert Clamp(form.selection, s.paid).platforms == platforms;
    var r1 := RunResult(s, [], Continue, PaywallVisible(s), None, None);
    assert Run(s, form, Redo(Twitter), o, []) == Outputs(r1, SectionOrder, platforms, Redo(Twitter), b, form.tone, o);
    var a := Section(r1, Twitter, platforms, Redo(Twitter), b, form.tone, o);
    SectionRedoFilled(r1, Twitter, platforms, b, form.tone, o);
    assert Outputs(r1, SectionOrder, platforms, Redo(Twitter), b, form.tone, o)
           == Outputs(a, [Instagram, LinkedIn, Email], platforms, Redo(Twitter), b, form.tone, o);
  }

  /** A redo click on Twitter when Twitter alone is selected and its slot is
      filled: an unpaid session past its three redos is denied with only the
      paywall flag raised and nothing asked; otherwise the redo is counted and
      the slot is replaced by the one regeneration the interaction asks for. */
  lemma RedoTwitterAlone(s: State, form: Form, o: Oracles, b: Blocks)
    requires form.selection == [Twitter]
    requires s.blocks == Some(b) && Truthy(b) && s.slots.twitter.Some?
    ensures var t := Turn(s, form, Redo(Twitter), o);
            if !s.paid && s.redoCount >= FreeRedoLimit then
              && t.redo == Some(Denied) && t.calls == [] && t.state == s.(showPaywall := true)
            else
              && t.redo == Some(Allowed) && t.calls == [Generation(Twitter, b, form.tone)]
              && t.state == s.(redoCount := s.redoCount + 1,
                               slots := s.slots.(twitter := Some(o.complete(0, Generation(Twitter, b, form.tone)))))
  {
    RedoTwitterPass(s, form, o, b);
    var r := Run(s, form, Redo(Twitter), o, []);
    if r.flow == Rerun {
      assert Clamp(form.selection, r.state.paid).platforms == [Twitter];
      RunIdleFilled(r.state, form, o, r.calls);
    }
  }

  /** An unpaid session with Twitter alone selected and no redo used yet:
      three redos are granted, the fourth is denied with the paywall flag
      raised, and the thread stays what the third redo produced. */
  lemma ScenarioRedoLimit(s: State, form: Form, b: Blocks, o1: Oracles, o2: Oracles, o3: Oracles, o4: Oracles)
    requires !s.paid && s.redoCount == 0 && form.selection == [Twitter]
    requires s.blocks == Some(b) && Truthy(b) && s.slots.twitter.Some?
    ensures var t1 := Turn(s, form, Redo(Twitter), o1);
            var t2 := Turn(t1.state, form, Redo(Twitter), o2);
            var t3 := Turn(t2.state, form, Redo(Twitter), o3);
            var t4 := Turn(t3.state, form, Redo(Twitter), o4);
            && t1.redo == Some(Allowed) && t2.redo == Some(Allowed) && t3.redo == Some(Allowed)
            && t3.state.redoCount == FreeRedoLimit
            && t4.redo == Some(Denied) && t4.state.showPaywall && t4.state.redoCount == FreeRedoLimit
            && t4.state.slots.twitter == t3.state.slots.twitter
            && t3.state.slots.twitter == Some(o3.complete(0, Generation(Twitter, b, form.tone)))
  {
    var t1 := Turn(s, form, Redo(Twitter), o1);
    RedoTwitterAlone(s, form, o1, b);
    var t2 := Turn(t1.state, form, Redo(Twitter), o2);
    RedoTwitterAlone(t1.state, form, o2, b);
    var t3 := Turn(t2.state, form, Redo(Twitter), o3);
    RedoTwitterAlone(t2.state, form, o3, b);
    RedoTwitterAlone(t3.state, form, o4, b);
  }
}

=== FILE: session.dfy ===
/** The per-session record of the script repurposer: the values the app keeps
    in Streamlit's session state between runs, the free-tier constants, and
    the invariant every state reachable from the defaults keeps.
 */
module Session {

  /** Python's `None`, or a value. */
  datatype Option<T> = None | Some(value: T)

  /** Free plan: one successful extraction per session. */
  const FreeScriptLimit: nat := 1

  /** Free plan: three granted redos per extraction, all platforms together. */
  const FreeRedoLimit: nat := 3

  /** The four options of the platform multiselect; each owns one artifact slot. */
  datatype Platform = Twitter | Instagram | LinkedIn | Email

  /** The order in which the output sections appear in the script. */
  const SectionOrder: seq<Platform> := [Twitter, Instagram, LinkedIn, Email]

  /** The options of the tone selectbox, passed verbatim into every prompt. */
  datatype Tone = Neutral | Casual | Bold | Professional

  /** One key of the object the model's reply parsed to, with the text of its value. */
  datatype Member = Member(key: string, value: string)

  /** The content blocks: whatever JSON object the reply parsed to. Its keys
      are never checked against the five the prompt asks for. */
  datatype Blocks = Blocks(members: seq<Member>)

  /** Python truthiness of a dict: it has at least one member. */
  predicate Truthy(b: Blocks) {
    |b.members| > 0
  }

  /** The four artifact slots; `None` means "not generated for the current blocks". */
  datatype Slots = Slots(twitter: Option<string>, instagram: Option<string>,
                         linkedin: Option<string>, email: Option<string>)

  const EmptySlots: Slots := Slots(None, None, None, None)

  function SlotOf(slots: Slots, p: Platform): Option<string> {
    match p
    case Twitter => slots.twitter
    case Instagram => slots.instagram
    case LinkedIn => slots.linkedin
    case Email => slots.email
  }

  /** Replaces one slot wholesale. */
  function WithSlot(slots: Slots, p: Platform, v: Option<string>): (t: Slots)
    ensures SlotOf(t, p) == v
    ensures forall q :: q != p ==> SlotOf(t, q) == SlotOf(slots, q)
  {
    match p
    case Twitter => slots.(twitter := v)
    case Instagram => slots.(instagram := v)
    case LinkedIn => slots.(linkedin := v)
    case Email => slots.(email := v)
  }

  datatype State = State(
    blocks: Option<Blocks>,
    slots: Slots,
    scriptCount: nat,
    redoCount: nat,
    paid: bool,
    showPaywall: bool)

  /** The defaults written into a fresh session. */
  const Init: State := State(None, EmptySlots, 0, 0, false, false)

  /** The output sections are rendered: blocks exist and are truthy. */
  predicate HasOutputs(s: State) {
    s.blocks.Some? && Truthy(s.blocks.value)
  }

  /** What every reachable session satisfies. */
  predicate Valid(s: State) {
    // the paywall flag is only ever raised for an unpaid session, and paying lowers it
    && (s.showPaywall ==> !s.paid)
    // the free counters never pass their limits
    && (!s.paid ==> s.scriptCount <= FreeScriptLimit && s.redoCount <= FreeRedoLimit)
    // blocks exist exactly when some extraction succeeded
    && (s.blocks.None? <==> s.scriptCount == 0)
    // without rendered outputs nothing was generated and nothing redone
    && (!HasOutputs(s) ==> s.slots == EmptySlots && s.redoCount == 0)
    // the email newsletter is never generated for an unpaid session
    && (s.slots.email.Some? ==> s.paid)
  }

  lemma InitValid()
    ensures Valid(Init)
    ensures !Init.paid && !Init.showPaywall && Init.blocks.None?
  {
  }
}

=== FILE: turns.dfy ===
/** What one user interaction (a pass of the script, plus the pass that
    `st.rerun()` asks for) does to the session. */
module Turns {
  import opened Session
  import opened Platforms
  import opened Extractor
  import opened Policy
  import opened Controller
  import opened Runs

  /** `paid` is monotone and set only by the confirmation while the paywall
      is up; the paywall flag is raised only by a denial and lowered only by
      the confirmation; the paywall is rendered by the interaction's last pass
      exactly when that pass reaches its section with the flag up in an
      unpaid session, which a denied "Repurpose" click never does. */
  lemma TurnPayment(s: State, form: Form, action: Action, o: Oracles, t: RunResult)
    requires t == Turn(s, form, action, o)
    ensures t.flow != Rerun
    ensures s.paid ==> t.state.paid
    ensures t.state.paid != s.paid ==> action == ConfirmPaid && PaywallVisible(s)
    ensures t.state.showPaywall && !s.showPaywall ==>
              t.submit == Some(LimitReached) || t.redo == Some(Denied)
    ensures s.showPaywall && !t.state.showPaywall ==> action == ConfirmPaid && t.state.paid
    ensures action == NoClick || action.Redo? ==> (t.paywallShown <==> PaywallVisible(s))
    ensures action == Repurpose ==>
              (t.paywallShown <==> t.submit == Some(Extracted) && PaywallVisible(s))
    ensures action == ConfirmPaid ==> !t.paywallShown
    ensures action == ConfirmPaid && PaywallVisible(s) ==> t.state.paid && !t.state.showPaywall
  {
    var r := Run(s, form, action, o, []);
    RunPayment(s, form, action, o, [], r);
    RunFlow(s, form, action, o, [], r);
    RunAdmission(s, form, action, o, [], r);
    RunRedo(s, form, action, o, [], r);
    if r.flow == Rerun {
      var r2 := Run(r.state, form, NoClick, o, r.calls);
      RunPayment(r.state, form, NoClick, o, r.calls, r2);
      RunFlow(r.state, form, NoClick, o, r.calls, r2);
      RunAdmission(r.state, form, NoClick, o, r.calls, r2);
      RunRedo(r.state, form, NoClick, o, r.calls, r2);
    }
  }

  /** The admission check and `redo_guard` over a whole interaction: a paid
      session is never denied; an extraction is denied exactly when an unpaid
      session already used its free one, whatever the script and platforms,
      and the denial changes only the paywall flag and asks nothing; a
      missing input or a failed parse changes nothing; a redo is denied only
      to an unpaid session that used its three. */
  lemma TurnDecisions(s: State, form: Form, action: Action, o: Oracles, t: RunResult)
    requires t == Turn(s, form, action, o)
    ensures s.paid ==> t.submit != Some(LimitReached) && t.redo != Some(Denied)
    ensures t.submit.Some? <==> action == Repurpose
    ensures t.submit == Some(LimitReached) <==>
              action == Repurpose && !s.paid && s.scriptCount >= FreeScriptLimit
    ensures t.submit == Some(LimitReached) ==>
              t.state == s.(showPaywall := true) && t.calls == [] && !t.paywallShown
    ensures t.submit == Some(MissingInput) ==> t.state == s && t.calls == []
    ensures t.submit == Some(ParseFailed) ==> t.state == s && t.calls == [Extraction(form.script)]
    ensures t.redo.Some? ==> action.Redo?
    ensures t.redo == Some(Denied) ==>
              && t.state.showPaywall && t.state.redoCount == s.redoCount
              && !s.paid && s.redoCount >= FreeRedoLimit
  {
    var r := Run(s, form, action, o, []);
    RunAdmission(s, form, action, o, [], r);
    RunRedo(s, form, action, o, [], r);
    RunFlow(s, form, action, o, [], r);
    RunCounters(s, form, action, o, [], r);
    RunPayment(s, form, action, o, [], r);
    if r.flow == Rerun {
      var r2 := Run(r.state, form, NoClick, o, r.calls);
      RunAdmission(r.state, form, NoClick, o, r.calls, r2);
      RunRedo(r.state, form, NoClick, o, r.calls, r2);
      RunFlow(r.state, form, NoClick, o, r.calls, r2);
      RunCounters(r.state, form, NoClick, o, r.calls, r2);
      RunPayment(r.state, form, NoClick, o, r.calls, r2);
    }
  }

  /** A successful extraction over a whole interaction: the extraction
      request is the first one sent, the reply's blocks are stored, one
      script is counted, the redo count restarts, and `paid` and the paywall
      flag stay as they were. */
  lemma TurnExtraction(s: State, form: Form, action: Action, o: Oracles, t: RunResult)
    requires t == Turn(s, form, action, o)
    ensures t.submit == Some(Extracted) ==>
              && action == Repurpose && |t.calls| > 0 && t.calls[0] == Extraction(form.script)
              && t.state.blocks == ExtractBlocks(o.complete(0, Extraction(form.script)), o.parse)
              && t.state.blocks.Some?
              && t.state.scriptCount == s.scriptCount + 1 && t.state.redoCount == 0
              && t.state.paid == s.paid && t.state.showPaywall == s.showPaywall
  {
    var platforms := Clamp(form.selection, s.paid).platforms;
    var r0 := Handle(s, form, platforms, action, o, []);
    if r0.submit == Some(Extracted) {
      assert r0.calls == [Extraction(form.script)];
      var r1 := r0.(paywallShown := PaywallVisible(r0.state));
      if HasOutputs(r1.state) {
        var r := Outputs(r1, SectionOrder, platforms, action, r1.state.blocks.value, form.tone, o);
        assert Run(s, form, action, o, []) == r;
        OutputsFrame(r1, SectionOrder, platforms, action, r1.state.blocks.value, form.tone, o, r);
        OutputsCounts(r1, SectionOrder, platforms, action, r1.state.blocks.value, form.tone, o, r);
        OutputsRedo(r1, SectionOrder, platforms, action, r1.state.blocks.value, form.tone, o, r);
        OutputsRequests(r1, SectionOrder, platforms, action, r1.state.blocks.value, form.tone, o, r);
      }
    }
  }

  /** A successful extraction counts exactly one script and resets the redo
      count; any other interaction keeps the blocks and the script count and
      adds exactly the one redo it was granted, if any. */
  lemma TurnCounters(s: State, form: Form, action: Action, o: Oracles, t: RunResult)
    requires t == Turn(s, form, action, o)
    ensures t.submit == Some(Extracted) ==>
              && t.state.blocks.Some? && t.state.scriptCount == s.scriptCount + 1
              && t.state.redoCount == 0
    ensures t.submit != Some(Extracted) ==>
              && t.state.blocks == s.blocks && t.state.scriptCount == s.scriptCount
              && t.state.redoCount == s.redoCount + (if t.redo == Some(Allowed) then 1 else 0)
  {
    var r := Run(s, form, action, o, []);
    RunCounters(s, form, action, o, [], r);
    RunFlow(s, form, action, o, [], r);
    if r.flow == Rerun {
      var r2 := Run(r.state, form, NoClick, o, r.calls);
      RunCounters(r.state, form, NoClick, o, r.calls, r2);
      RunFlow(r.state, form, NoClick, o, r.calls, r2);
    }
  }

  /** The email generator is only ever asked for by an interaction that ends
      paid. */
  lemma TurnEmailGate(s: State, form: Form, action: Action, o: Oracles, t: RunResult)
    requires t == Turn(s, form, action, o)
    ensures forall i :: 0 <= i < |t.calls| && GeneratesFor(t.calls[i], Email) ==> t.state.paid
  {
    var r := Run(s, form, action, o, []);
    RunGenerations(s, form, action, o, [], r);
    RunPayment(s, form, action, o, [], r);
    if r.flow == Rerun {
      var r2 := Run(r.state, form, NoClick, o, r.calls);
      RunRequests(r.state, form, NoClick, o, r.calls, r2);
      RunGenerations(r.state, form, NoClick, o, r.calls, r2);
      RunPayment(r.state, form, NoClick, o, r.calls, r2);
    }
  }

  /** How the requests of a pass and of the rerun after it combine, stated
      over what the two passes promise. */
  lemma CombineRerunRequests(s: State, form: Form, action: Action, r: RunResult, r2: RunResult)
    requires forall i :: 0 <= i < |r.calls| && r.calls[i].Extraction? ==> action == Repurpose
    requires forall i :: 0 <= i < |r.calls| && r.calls[i].Generation? ==>
               Renders(r.calls[i].platform, Clamp(form.selection, s.paid).platforms, s.paid)
    requires forall i :: 0 <= i < |r.calls| && r.calls[i].Generation? ==>
               || SlotOf(s.slots, r.calls[i].platform).None?
               || r.submit == Some(Extracted)
               || (action == Redo(r.calls[i].platform) && r.redo == Some(Allowed))
    requires forall q :: SlotOf(s.slots, q).Some? && r.submit != Some(Extracted) ==>
               SlotOf(r.state.slots, q).Some?
    requires r.calls <= r2.calls
    requires forall i :: |r.calls| <= i < |r2.calls| ==> !r2.calls[i].Extraction?
    requires forall i :: |r.calls| <= i < |r2.calls| && r2.calls[i].Generation? ==>
               Renders(r2.calls[i].platform, Clamp(form.selection, r.state.paid).platforms, r.state.paid)
    requires forall i :: |r.calls| <= i < |r2.calls| && r2.calls[i].Generation? ==>
               SlotOf(r.state.slots, r2.calls[i].platform).None? || r2.submit == Some(Extracted)
    requires r2.submit == None
    ensures forall i :: 0 <= i < |r2.calls| && r2.calls[i].Generation? ==>
              && r2.calls[i].platform in form.selection
              && (|| SlotOf(s.slots, r2.calls[i].platform).None?
                  || r.submit == Some(Extracted)
                  || (action == Redo(r2.calls[i].platform) && r.redo == Some(Allowed)))
    ensures forall i :: 0 <= i < |r2.calls| && r2.calls[i].Extraction? ==> action == Repurpose
  {
    forall p: Platform { ClampKeepsSelectedOnly(form.selection, s.paid, p); }
    forall p: Platform { ClampKeepsSelectedOnly(form.selection, r.state.paid, p); }
    forall i | 0 <= i < |r.calls|
      ensures r2.calls[i] == r.calls[i]
    {
    }
  }


  /** Every generation is for a selected platform whose slot was empty, was
      cleared by a new extraction, or was granted a redo; only the
      "Repurpose" click asks for an extraction. */
  lemma TurnRequests(s: State, form: Form, action: Action, o: Oracles, t: RunResult)
    requires t == Turn(s, form, action, o)
    ensures forall i :: 0 <= i < |t.calls| && t.calls[i].Generation? ==>
              && t.calls[i].platform in form.selection
              && (|| SlotOf(s.slots, t.calls[i].platform).None?
                  || t.submit == Some(Extracted)
                  || (action == Redo(t.calls[i].platform) && t.redo == Some(Allowed)))
    ensures forall i :: 0 <= i < |t.calls| && t.calls[i].Extraction? ==> action == Repurpose
  {
    var r := Run(s, form, action, o, []);
    if r.flow == Rerun {
      var r2 := Run(r.state, form, NoClick, o, r.calls);
      RunRequests(s, form, action, o, [], r);
      RunGenerations(s, form, action, o, [], r);
      RunSlots(s, form, action, o, [], r);
      RunRequests(r.state, form, NoClick, o, r.calls, r2);
      RunGenerations(r.state, form, NoClick, o, r.calls, r2);
      RunFlow(r.state, form, NoClick, o, r.calls, r2);
      CombineRerunRequests(s, form, action, r, r2);
    } else {
      RunRequests(s, form, action, o, [], r);
      RunGenerations(s, form, action, o, [], r);
      forall p: Platform { ClampKeepsSelectedOnly(form.selection, s.paid, p); }
    }
  }

  /** How the rendering facts of a pass and of the rerun after it combine,
      stated over what the two passes promise. */
  lemma CombineRerunRendered(s: State, form: Form, r: RunResult, r2: RunResult)
    requires forall i :: 0 <= i < |r.calls| && r.calls[i].Generation? ==>
               Renders(r.calls[i].platform, Clamp(form.selection, s.paid).platforms, s.paid)
    requires forall i :: 0 <= i < |r.calls| && r.calls[i].Generation? ==> HasOutputs(r.state)
    requires s.paid ==> r.state.paid
    requires r.state.paid ==> r2.state.paid
    requires r.calls <= r2.calls
    requires forall i :: |r.calls| <= i < |r2.calls| && r2.calls[i].Generation? ==>
               Renders(r2.calls[i].platform, Clamp(form.selection, r.state.paid).platforms, r.state.paid)
    requires forall i :: |r.calls| <= i < |r2.calls| && r2.calls[i].Generation? ==> HasOutputs(r2.state)
    requires r2.state.blocks == r.state.blocks
    ensures forall i :: 0 <= i < |r2.calls| && r2.calls[i].Generation? ==> HasOutputs(r2.state)
    ensures r2.state.paid == s.paid ==>
              forall i :: 0 <= i < |r2.calls| && r2.calls[i].Generation? ==>
                Renders(r2.calls[i].platform, Clamp(form.selection, s.paid).platforms, s.paid)
  {
    forall i | 0 <= i < |r.calls|
      ensures r2.calls[i] == r.calls[i]
    {
    }
  }

  /** Generations happen only when the output sections are up, and, in an
      interaction that does not change `paid`, only for platforms the clamp
      kept and the email gate lets through. */
  lemma TurnRequestsRendered(s: State, form: Form, action: Action, o: Oracles, t: RunResult)
    requires t == Turn(s, form, action, o)
    ensures forall i :: 0 <= i < |t.calls| && t.calls[i].Generation? ==> HasOutputs(t.state)
    ensures t.state.paid == s.paid ==>
              forall i :: 0 <= i < |t.calls| && t.calls[i].Generation? ==>
                Renders(t.calls[i].platform, Clamp(form.selection, s.paid).platforms, s.paid)
  {
    var r := Run(s, form, action, o, []);
    RunGenerations(s, form, action, o, [], r);
    if r.flow == Rerun {
      var r2 := Run(r.state, form, NoClick, o, r.calls);
      RunPayment(s, form, action, o, [], r);
      RunRequests(r.state, form, NoClick, o, r.calls, r2);
      RunGenerations(r.state, form, NoClick, o, r.calls, r2);
      RunPayment(r.state, form, NoClick, o, r.calls, r2);
      RunFlow(r.state, form, NoClick, o, r.calls, r2);
      RunCounters(r.state, form, NoClick, o, r.calls, r2);
      CombineRerunRendered(s, form, r, r2);
    }
  }

  /** A filled slot is replaced only by a new extraction or a granted redo
      of its platform; an interaction that runs to the end leaves every
      rendered slot filled; one with no click that asks nothing changes nothing. */
  lemma TurnSlots(s: State, form: Form, action: Action, o: Oracles, t: RunResult)
    requires t == Turn(s, form, action, o)
    ensures forall q :: SlotOf(s.slots, q).Some? && SlotOf(t.state.slots, q) != SlotOf(s.slots, q) ==>
              t.submit == Some(Extracted) || (action == Redo(q) && t.redo == Some(Allowed))
    ensures t.flow == Continue ==>
              forall q :: HasOutputs(t.state) && Renders(q, Clamp(form.selection, t.state.paid).platforms, t.state.paid) ==>
                SlotOf(t.state.slots, q).Some?
    ensures action == NoClick ==> t.flow == Continue
    ensures action == NoClick && t.calls == [] ==> t.state == s
  {
    var r := Run(s, form, action, o, []);
    RunSlots(s, form, action, o, [], r);
    RunSlotsFilled(s, form, action, o, [], r);
    RunFlow(s, form, action, o, [], r);
    RunPayment(s, form, action, o, [], r);
    RunCounters(s, form, action, o, [], r);
    if r.flow == Rerun {
      var r2 := Run(r.state, form, NoClick, o, r.calls);
      RunSlots(r.state, form, NoClick, o, r.calls, r2);
      RunSlotsFilled(r.state, form, NoClick, o, r.calls, r2);
      RunFlow(r.state, form, NoClick, o, r.calls, r2);
      RunPayment(r.state, form, NoClick, o, r.calls, r2);
      RunCounters(r.state, form, NoClick, o, r.calls, r2);
    }
  }

  /** An interaction keeps the session invariant. */
  lemma TurnValid(s: State, form: Form, action: Action, o: Oracles, t: RunResult)
    requires t == Turn(s, form, action, o)
    requires Valid(s)
    ensures Valid(t.state)
  {
    var r := Run(s, form, action, o, []);
    RunValid(s, form, action, o, [], r);
    if r.flow == Rerun {
      var r2 := Run(r.state, form, NoClick, o, r.calls);
      RunValid(r.state, form, NoClick, o, r.calls, r2);
    }
  }
}
